=== FILE: README.md ===
# AskMyDocs — a Dafny model of the document dashboard and its serverless functions

AskMyDocs lets a signed-in user keep a private library of documents and ask a
completion service about them. Users can upload PDFs, images and audio. They can
extract text, summarize one document or a whole selection, ask a question of the
selection, and share a summary as a public HTML page. This project models that
core in Dafny 4.11 and proves properties of the model.

The model covers:

- **The dashboard** (`src/pages/Dashboard.jsx`). This covers the filename helpers
  `guessType` and `safeName`, the upload and lazy-extraction transitions, selection,
  and reload of the library with its saved summaries. It also covers the client
  daily quota (`checkSummaryLimit`, `checkQuestionLimit`), the usage counters
  (`refreshUsage`, `logUsage`), and the three actions that call the remote
  functions: `summarizeDoc`, `summarizeSelected` and `onAsk`.
- **The one-time-code page** (`src/pages/Verify.jsx`). This covers the mode-to-type
  mapping, the digit filter of the code box, `submit`, `resend`, and the redirect
  when a session already exists.
- **The shared server helpers** (`supabase/functions/_shared/common.ts`). These are
  the daily gate `checkAndLogUsage` with its `LIMITS` table, `withCORS` and `json`.
- **The `ask`, `summarize` and `share` functions.** For each one the model covers
  its `withCORS` copy, its request validation, the prompt or page it builds, the
  reading of the completion service's reply (`extractText`), and its responses.

Every outside effect is an input to the model. This includes storage uploads,
extraction, `fetch` replies, database counts, the identity provider's replies and
the clock. The actions return the state after the action together with the list
of calls they made, so properties about what was sent are stated on that list.
The modules follow the program's structure:

| module | file | source |
|---|---|---|
| `Wrappers` | wrappers.dfy | `Option` |
| `Text` | text.dfy | the JavaScript string operations used (`toLowerCase` on ASCII, `trim`, `slice`, `join`, `String(n)`) |
| `Json` | json.dfy | parsed JSON values, `?.`, `??`, truthiness, `String(v)` |
| `Http` | http.dfy | requests, responses, `json`, both `withCORS` variants, `serve` |
| `UsageGate` | usage_gate.dfy | `checkAndLogUsage` and `LIMITS` |
| `GateAgreement` | gate_agreement.dfy | the dashboard's check against the server gate |
| `DocNames` | doc_names.dfy | `guessType`, `safeName` |
| `Quota` | quota.dfy | `checkSummaryLimit`, `checkQuestionLimit`, usage rows per batch |
| `Library` | library.dfy | the document list: upload, `ensureText`, selection, reload |
| `LibraryActions` | library_actions.dfy | `summarizeDoc`, `summarizeSelected`, `onAsk`, `logUsage`, `refreshUsage` |
| `Completion`, `Upstream` | completion.dfy | `extractText`; the reply handling shared by `ask` and `summarize` |
| `AskFunction` | ask_function.dfy | `supabase/functions/ask` |
| `SummarizeFunction` | summarize_function.dfy | `supabase/functions/summarize` |
| `ShareFunction` | share_function.dfy | `supabase/functions/share` |
| `OtpVerify` | otp_verify.dfy | `src/pages/Verify.jsx` |

The model follows the code as written, with one exception, the batch usage rows
described under Findings. Two points of the program are easy to misread:

- **The remote functions do not enforce the quota.** `common.ts` defines
  `checkAndLogUsage` and `LIMITS`, but `ask` and `summarize` never call it; the only
  quota check on their path is the dashboard's. The gate is therefore modelled on its
  own (`UsageGate`), and `GateAgreement` proves that, given the same count of the
  past day, the gate and the dashboard's check accept the same requests. The two do
  not count the same rows: the dashboard counts `usage_events` of kind `summary` and
  `question`, and the gate counts those of kind `summarize` and `ask`.
- **A reloaded document's name is the storage name.** On reload, a document's
  display name is the storage object's name, which is the time-stamped, sanitised
  path component. It is not the `name` column of the saved summary row.
  `Library.LoadLibrary` states this.

The exception: `summarizeSelected` and `onAsk` write one usage row per batch
(`Dashboard.jsx:402`, `:460`), which lets batches overrun the daily limit. The model
of those two actions (`LibraryActions.SummarizeRound`, `LibraryActions.AskRound`)
writes one row per request instead. `Quota.AsWrittenBatchesExceedQuota` keeps the
code's behaviour on record. The resend type of `Verify.jsx` is modelled as written
(`OtpVerify.Resend`); its case-insensitive reading is kept alongside as
`OtpVerify.ResendType`.

## Model

| member | source | states |
|---|---|---|
| Text.ToLower | src/pages/Dashboard.jsx:38 | `toLowerCase` keeps the length and lowers each ASCII capital, character by character |
| Text.TakeAtMost | src/pages/Dashboard.jsx:356 | `slice(0, n)` is the prefix whose length is the smaller of the length of `s` and `n` |
| Text.Trim | src/pages/Verify.jsx:49 | `trim` yields an infix of the input that has no JavaScript whitespace at either end, and everything removed before and after it is whitespace |
| Json.Coalesce | supabase/functions/ask/index.ts:29-31 | `a ?? b` is `a` unless `a` is null or undefined, and `b` otherwise |
| Http.AllowedOrigin | supabase/functions/_shared/common.ts:60 | the configured origin when it is set and non-empty, otherwise `http://localhost:5173` |
| Http.JsonResponse | supabase/functions/_shared/common.ts:83-88 | `json(body, status)` has exactly that status and body, and a single `content-type: application/json` header |
| Http.PlainJson | supabase/functions/share/index.ts:38 | a response built from a `JSON.stringify` string has the given status and body but is not labelled `application/json` |
| Http.Serve | supabase/functions/share/index.ts:36-44 | a returned response is sent as it is; a thrown exception becomes a 500 with no CORS header |
| Http.RequestedHeaders | supabase/functions/_shared/common.ts:64 | the preflight echoes the requested header list, or the default list when none is named |
| Http.WithCors | supabase/functions/_shared/common.ts:61-81 | OPTIONS gets a 200 preflight without calling the handler; any other request keeps the handler's status, body and headers, with the origin and `Vary: Origin` added |
| Http.WithFunctionCors | supabase/functions/share/index.ts:14-34 | each function's own wrapper answers the preflight with a fixed header list, and also labels every other response `application/json` |
| UsageGate.Limit | supabase/functions/_shared/common.ts:4-7 | `LIMITS[kind] ?? 0` is 50 for `summarize` and 100 for `ask`; it is an inherited member, not a number, exactly for the `Object.prototype` property names; it is 0 for any other kind |
| UsageGate.CheckAndLogUsage | supabase/functions/_shared/common.ts:28-57 | the gate admits exactly an authenticated caller whose count succeeded and is below the limit, and then logs exactly one event; 401, 500 and 429 otherwise, with nothing logged |
| UsageGate.UnknownKindAlwaysRefused | supabase/functions/_shared/common.ts:45-48 | a kind that is neither in `LIMITS` nor an `Object.prototype` property name is refused for every caller and never logged |
| UsageGate.InheritedKindAlwaysAdmitted | supabase/functions/_shared/common.ts:45-53 | a kind such as `toString` compares as `NaN`, so an authenticated caller whose count succeeds is admitted and logged at any count |
| UsageGate.NullCountIsZero | supabase/functions/_shared/common.ts:46 | a null count is read exactly as a count of 0 |
| UsageGate.GateKeepsCountWithinLimit | supabase/functions/_shared/common.ts:36-53 | for a kind with a numeric limit, over a faithfully counted log, passing the gate never takes a caller's count above the limit, and it admits exactly when the count is below the limit |
| UsageGate.FiftiethSummaryScenario | supabase/functions/_shared/common.ts:45-53 | with 49 summaries logged the 50th is admitted and logged; the next one is refused with 429 |
| GateAgreement.ClientAndServerAgree | src/pages/Dashboard.jsx:319-332 | for a single request, the dashboard's check passes exactly when the server gate would admit it for the same count |
| GateAgreement.BatchAgreesWithServer | src/pages/Dashboard.jsx:319-325 | a batch of `n` passes the dashboard's check exactly when the gate would admit all `n` requests one after another |
| DocNames.HasExtension | src/pages/Dashboard.jsx:40-41 | the regular-expression alternation holds exactly when the name ends with a dot and one of the listed extensions |
| DocNames.GuessType | src/pages/Dashboard.jsx:37-43 | the type is determined by the lower-cased suffix, in the order pdf, then image, then audio; anything else is a plain file |
| DocNames.GuessTypeIgnoresCase | src/pages/Dashboard.jsx:38 | two names that agree after lower-casing get the same type |
| DocNames.GuessTypeExamples | src/pages/Dashboard.jsx:39 | `A.PDF` is a PDF |
| DocNames.Collapse | src/pages/Dashboard.jsx:45 | the scan writes only characters from `[A-Za-z0-9_.-]` and never lengthens the name |
| DocNames.SafeName | src/pages/Dashboard.jsx:44-46 | the sanitised name has only allowed characters and is no longer than the input |
| DocNames.SafeNameOfNameChars | src/pages/Dashboard.jsx:45 | a name made only of allowed characters is unchanged |
| DocNames.SafeNameIdempotent | src/pages/Dashboard.jsx:45 | sanitising twice gives the same result as sanitising once |
| DocNames.SafeNameKeepsAllowedPrefix | src/pages/Dashboard.jsx:45 | an allowed prefix is copied through unchanged |
| DocNames.SafeNameCollapsesRun | src/pages/Dashboard.jsx:45 | a maximal run of disallowed characters, of any length, becomes exactly one `_` |
| DocNames.SafeNameKeepsLetters | src/pages/Dashboard.jsx:45 | apart from `_`, the output holds exactly the input's allowed characters, in order |
| DocNames.SafeNameExamples | src/pages/Dashboard.jsx:45 | `a //b` becomes `a_b` |
| Quota.CheckSummaryLimit | src/pages/Dashboard.jsx:319-325 | the check passes exactly when the summaries counted plus those about to be made stay within 50 |
| Quota.CheckQuestionLimit | src/pages/Dashboard.jsx:326-332 | the check passes exactly when the questions counted plus those about to be asked stay within 100 |
| Quota.LimitBoundary | src/pages/Dashboard.jsx:320 | reaching the limit exactly is allowed and one more is not; asking for fewer never turns a pass into a refusal |
| Quota.SummaryScenario | src/pages/Dashboard.jsx:319-325 | at 49 one more summary passes; at 50 it does not; at 49 a batch of two does not |
| Quota.AsWrittenBatchesExceedQuota | src/pages/Dashboard.jsx:402 | with one usage row per batch, a batch of 50 followed by a batch of 49 is admitted: 99 summaries in one day |
| Quota.CorrectedBatchesStayWithinQuota | src/pages/Dashboard.jsx:376-402 | with one row per request, for every sequence of batches, the counter equals the requests sent and never exceeds the limit |
| Library.Keep | src/pages/Dashboard.jsx:257 | `filter` keeps exactly the records the predicate accepts |
| Library.KeepCounts | src/pages/Dashboard.jsx:257 | `filter` keeps each accepted record as often as it occurs and drops every other |
| Library.KeepAppend | src/pages/Dashboard.jsx:257 | `filter` keeps the order: filtering a concatenation concatenates the filtered parts |
| Library.WithoutId | src/pages/Dashboard.jsx:257 | removing an id keeps exactly the records with another id |
| Library.WithoutIdCounts | src/pages/Dashboard.jsx:257 | removing an id keeps every record with another id as often as it occurs |
| Library.WithoutIdAppend | src/pages/Dashboard.jsx:257 | removing an id keeps the order of the records that stay |
| Library.FindDoc | src/pages/Dashboard.jsx:105 | `find` returns the first record of the list with that id, and returns nothing only when no record has that id |
| Library.UpdateWhere | src/pages/Dashboard.jsx:300 | the `map` changes exactly the records with the id and leaves the others in place |
| Library.StoragePath | src/pages/Dashboard.jsx:238 | the path is the user's folder, `/`, then a single component made only of allowed characters |
| Library.StoragePathIsNotPlaceholder | src/pages/Dashboard.jsx:238-239 | a storage path never ends in `::temp`, so it never looks like a placeholder id |
| Library.FreshPlaceholder | src/pages/Dashboard.jsx:238-257 | in a list without placeholders, removing the new placeholder's id removes nothing else |
| Library.AbortUndoesStage | src/pages/Dashboard.jsx:242-258 | adding the placeholder and then removing it after an upload error gives back the list as it was |
| Library.UploadOne | src/pages/Dashboard.jsx:236-286 | on an upload error the list is as before and the error is shown; otherwise the finalized record, keyed by its path and carrying the extracted text, heads the list and becomes active and the only selection |
| Library.UploadFrom | src/pages/Dashboard.jsx:236-286 | the files are processed in turn: each accepted file adds one record in front of the old list, and no placeholder remains |
| Library.HandleUpload | src/pages/Dashboard.jsx:228-289 | without a user it only reports; an empty pick changes nothing; otherwise the list grows by the number of accepted files and keeps the old list as its tail |
| Library.EnsureText | src/pages/Dashboard.jsx:292-304 | nothing happens without a record or when the record already has text; an extraction failure only reports; otherwise exactly the records with the document's id get the text |
| Library.EnsureTextIdempotent | src/pages/Dashboard.jsx:293 | once a non-empty text is stored, calling again changes nothing, whatever the extractor would return |
| Library.ToggleSelected | src/pages/Dashboard.jsx:638-640 | the checkbox flips the id's membership and leaves every other id as it was |
| Library.ToggleTwice | src/pages/Dashboard.jsx:638-640 | ticking then unticking a box restores the selection exactly |
| Library.OpenDoc | src/pages/Dashboard.jsx:645-647 | the clicked record becomes active and is selected; an existing selection that holds it is kept (the text fetch that follows is `Library.ClickDoc`) |
| Library.ClickDoc | src/pages/Dashboard.jsx:645-649 | the whole click: active and selected as in `OpenDoc`, answers and counters kept, only records with the clicked id can change, and only when it had no text, in which case they take the extracted text |
| Library.SavedSummary | src/pages/Dashboard.jsx:199-214 | never empty; a path with no saved row shows the placeholder summary |
| Library.SavedSummaryLastRowWins | src/pages/Dashboard.jsx:199-214 | `new Map` keeps the last row of a path: the summary shown is that row's `last_summary`, or the placeholder when it is empty or null |
| Library.LoadLibrary | src/pages/Dashboard.jsx:179-225 | a listing error only reports; otherwise one record per stored file, keyed by its path, named and typed by the stored name and without text, with the signed URL of its path and the saved summary of its path (none when the summary query failed); the first record becomes active and selected |
| LibraryActions.RequestText | src/pages/Dashboard.jsx:356 | a request carries the first 200 000 characters of the text |
| LibraryActions.RecordUsage | src/pages/Dashboard.jsx:165-176 | nothing is written without a user; otherwise the counter of the kind grows by the rows written |
| LibraryActions.FieldOr | src/pages/Dashboard.jsx:361 | reading `data.field` with a fallback throws exactly when the body is `null`; otherwise a non-empty string field is read as it is and a falsy field gives the fallback |
| LibraryActions.SummarizeDoc | src/pages/Dashboard.jsx:335-372 | refuses without text, without a functions URL and over the quota, in that order, calling nothing; otherwise sends exactly one request and changes only summaries, and only the document's; a failed fetch or an unreadable body shows its message (or "Summarize failed"), a rejected reply shows `RejectedMessage`, and none of these changes anything else; a good `null` body throws, shows the TypeError and changes nothing else; any other good reply stores `data.summary || "No summary."` on the document's records whether or not a user is signed in; without a user it makes no other call, and with one it saves that summary under the document's path and name and logs one summary, in that order |
| LibraryActions.StoreSummary | src/pages/Dashboard.jsx:361-366 | the records with the id get the summary and nothing else changes in them; with a user the calls are the request, the save of that summary and one usage row, and the count rises by one; without a user only the request |
| LibraryActions.RejectedMessage | src/pages/Dashboard.jsx:359-368 | never empty; a truthy `detail` that reads as a non-empty string wins, then `error`, and a value that reads as `""` falls back to "Summarize failed" again |
| LibraryActions.EmptyArrayDetailFallsBack | src/pages/Dashboard.jsx:359-368 | a `detail` of `[]` or `[null]` is truthy but shows "Summarize failed" |
| LibraryActions.ChosenForSummary | src/pages/Dashboard.jsx:376 | the batch holds exactly the selected records that have text, each as often as it occurs in the list |
| LibraryActions.ChosenKeepsOrder | src/pages/Dashboard.jsx:376 | the batch keeps list order: the chosen records of a concatenation are those of each part in turn |
| LibraryActions.BatchSummary | src/pages/Dashboard.jsx:396-397 | a failed reply stores "Summary unavailable."; a good one stores what a single summary would (`SummaryOf`); the read throws exactly for a good `null` body |
| LibraryActions.SummaryRequestsFor | src/pages/Dashboard.jsx:386-394 | one request per chosen record, in order |
| LibraryActions.SummarizeFrom | src/pages/Dashboard.jsx:386-399 | a completed loop sends exactly the requests for the remaining records; a stopped one sends a non-empty prefix of them; a good `null` body stops the loop at that record with the TypeError, storing nothing for it |
| LibraryActions.SummarizeFromTouchesOnlyChosen | src/pages/Dashboard.jsx:397-398 | the loop changes records only in their summary, and only records in the batch |
| LibraryActions.UnselectedNotChosen | src/pages/Dashboard.jsx:376 | an unselected record is never in the batch |
| LibraryActions.SummarizeFromStores | src/pages/Dashboard.jsx:386-399 | a completed loop had a storable reply for every chosen record, and each record shows the summary of the reply to the last chosen record with its id |
| LibraryActions.SummarizeFromSaves | src/pages/Dashboard.jsx:386-399 | with a user, a completed loop saves every chosen record's summary under its path and name; without one it makes no call but the requests |
| LibraryActions.SummarizeRound | src/pages/Dashboard.jsx:383-407 | only chosen records change, and only in their summary; the requests form a prefix of the batch; a stopped round shows an error and logs nothing; a completed round stores on each chosen record the summary of its own reply, saves each summary when a user is signed in, and adds one summary per record to the count |
| LibraryActions.SummarizeSelected | src/pages/Dashboard.jsx:375-408 | an empty batch or one over the quota is refused, calling nothing; unselected records are never touched; a completed batch gives each chosen record the summary of its own reply and leaves the count within the daily limit |
| LibraryActions.AskTargets | src/pages/Dashboard.jsx:423-424 | with a selection the targets are exactly the records a summary batch would choose, in list order and multiplicity; with nothing selected, the active record if it has text |
| LibraryActions.KeepBoth | src/pages/Dashboard.jsx:423-424 | two filters in a row keep what both predicates accept, in order |
| LibraryActions.AnswerOf | src/pages/Dashboard.jsx:447-450 | an unreadable body reads as `{}`; a failed reply gives an `Ask failed: ` text; the read throws exactly for a good `null` body |
| LibraryActions.AskRequestsFor | src/pages/Dashboard.jsx:434-445 | one request per target, in order, each with the question and that single document |
| LibraryActions.AskFrom | src/pages/Dashboard.jsx:434-456 | records that are not targeted keep their history; a completed loop sends exactly the requests for the targets; a stopped loop sends a non-empty prefix of them; a good `null` body stops the loop at that target with the TypeError, adding no entry |
| LibraryActions.AskFromHistories | src/pages/Dashboard.jsx:447-455 | with distinct ids, a completed loop puts exactly the target's own answer in front of each target's old history |
| LibraryActions.AskRound | src/pages/Dashboard.jsx:432-465 | the documents are untouched; the requests form a prefix of the targets'; a stopped round keeps the question box, shows an error and logs nothing; a completed round clears the box and adds one question per target to the count |
| LibraryActions.AskRoundAddsOneEntryEach | src/pages/Dashboard.jsx:452-455 | after a completed round each target's history has exactly one new entry, for this question, in front of its old history |
| LibraryActions.OnAsk | src/pages/Dashboard.jsx:411-466 | an empty trimmed question, a missing functions URL, no targets and a quota overrun are refused in that order, calling nothing; a completed round leaves the count within the daily limit |
| LibraryActions.RefreshUsage | src/pages/Dashboard.jsx:136-163 | if either count query fails the counters keep their values; otherwise they take the counts read, with null read as 0 |
| LibraryActions.RefreshUsageLastGoodReadWins | src/pages/Dashboard.jsx:136-163 | a refresh changes only the counters; after a good refresh, a failing one keeps what it read, and a later good one replaces it regardless of the earlier state |
| Completion.ContentParts | supabase/functions/ask/index.ts:34 | an item's `content` array contributes its elements, and a missing `content` contributes nothing |
| Completion.PartText | supabase/functions/ask/index.ts:35 | a part's string `text` is its text; a part without `text` or `content` gives `""` |
| Completion.OutputText | supabase/functions/ask/index.ts:32-37 | without an `output` array the last candidate is `""` |
| Completion.ExtractText | supabase/functions/ask/index.ts:28-39 | the result has no surrounding whitespace; `output_text` wins, then the chat content, then the joined `output` parts; a non-string candidate gives `""` |
| Completion.ReadsResponsesShape | supabase/functions/ask/index.ts:32-38 | a reply with only an `output` array gives its texts joined by newlines, then trimmed |
| Completion.ReadsChatShape | supabase/functions/ask/index.ts:31 | a chat-style reply gives its message content, trimmed |
| Completion.OutputTextWins | supabase/functions/ask/index.ts:30 | a top-level `output_text` is used even when an `output` is present |
| Upstream.ErrorReply | supabase/functions/ask/index.ts:43 | an error reply has the given status and the body `{ error }` |
| Upstream.Payload | supabase/functions/ask/index.ts:46-48 | an unreadable or falsy body reads as `{}`; a truthy body is used as it is |
| Upstream.TextOr | supabase/functions/ask/index.ts:91 | the extracted text when there is any, the fallback otherwise |
| Upstream.Respond | supabase/functions/ask/index.ts:86-92 | a failed reply gives a 502 carrying the upstream text; a good reply gives a 200 carrying the extracted text under the key; a failed `fetch` or an unparsable good reply throws |
| Upstream.RespondOkCarriesText | supabase/functions/ask/index.ts:86-92 | a 200 always carries a non-empty trimmed text |
| AskFunction.Budget | supabase/functions/ask/index.ts:59 | the per-document share multiplied by the documents used never exceeds 200 000, and one more character each would exceed it: the share is floor(200 000 / min(10, n)) |
| AskFunction.DocName | supabase/functions/ask/index.ts:58 | a document's string name is used as it is, even when empty; only a null or missing name becomes `Doc <i+1>` |
| AskFunction.DocText | supabase/functions/ask/index.ts:59 | a document's text is cut to its share |
| AskFunction.Sections | supabase/functions/ask/index.ts:57-60 | one section per document used, at most ten, in order, all with the same share |
| AskFunction.CorpusTextWithinLimit | supabase/functions/ask/index.ts:55-61 | however many documents arrive, the document text in the prompt totals at most 200 000 characters |
| AskFunction.OnlyTenDocsUsed | supabase/functions/ask/index.ts:57 | documents after the tenth do not affect the corpus |
| AskFunction.SingleDocGetsWholeBudget | supabase/functions/ask/index.ts:59 | a single document keeps up to the whole 200 000-character budget |
| AskFunction.Prompt | supabase/functions/ask/index.ts:63-73 | the prompt opens with the grounding instructions followed by the corpus, and ends with the question followed by `Answer:` |
| AskFunction.PromptCarriesCorpus | supabase/functions/ask/index.ts:57-68 | the corpus built from the payload's documents sits in the prompt right after the instructions |
| AskFunction.HandleAsk | supabase/functions/ask/index.ts:41-93 | 405, then 400 for a missing question or an empty document list, then 500 without a key; otherwise exactly the payload's prompt is sent and the reply is handled under `answer` |
| AskFunction.ReachesUpstreamOnlyWhenValid | supabase/functions/ask/index.ts:42-52 | the completion service is called exactly for a POST with a question, a non-empty document list and an API key |
| AskFunction.AskStatuses | supabase/functions/ask/index.ts:41-93 | the function answers only 200, 400, 405, 500 or 502, and any prompt it sends ends with the payload's question |
| AskFunction.DeployedAsk | supabase/functions/ask/index.ts:6-41 | behind `serve(withCORS(...))` a preflight sends no prompt; every returned response keeps its status and body and carries the origin and `application/json`; a throw becomes the bare 500 |
| SummarizeFunction.Prompt | supabase/functions/summarize/index.ts:52-55 | the prompt starts with the instruction and ends with at most 200 000 characters of the text |
| SummarizeFunction.TitledWhenNamed | supabase/functions/summarize/index.ts:53 | a truthy name is quoted right after the instruction's lead |
| SummarizeFunction.UntitledWhenUnnamed | supabase/functions/summarize/index.ts:53 | without a name no title follows the lead |
| SummarizeFunction.TitledIffNamed | supabase/functions/summarize/index.ts:53 | the prompt names the document exactly when the name is truthy |
| SummarizeFunction.ShortTextSentWhole | supabase/functions/summarize/index.ts:55 | a text within the limit reaches the prompt whole |
| SummarizeFunction.HandleSummarize | supabase/functions/summarize/index.ts:41-75 | 405, then 400 for a falsy text, then 500 without a key; otherwise the prompt for the payload is sent and the reply is handled under `summary` |
| SummarizeFunction.SummarizeStatuses | supabase/functions/summarize/index.ts:41-75 | the function answers only 200, 400, 405, 500 or 502, and any prompt it sends ends with the payload's text cut to 200 000 characters |
| SummarizeFunction.DeployedSummarize | supabase/functions/summarize/index.ts:6-41 | behind `serve(withCORS(...))` a preflight sends no prompt; every returned response keeps its status and body and carries the origin and `application/json`; a throw becomes the bare 500 |
| ShareFunction.StripMarkup | supabase/functions/share/index.ts:50 | the name keeps no `<`, `>` or `&` |
| ShareFunction.StripMarkupKeepsOthers | supabase/functions/share/index.ts:50 | every other character is kept as often as it occurred |
| ShareFunction.StripMarkupOfPlain | supabase/functions/share/index.ts:50 | a name without markup characters is unchanged |
| ShareFunction.EscapeLt | supabase/functions/share/index.ts:51 | the escaped summary holds no `<` |
| ShareFunction.EscapeRoundTrip | supabase/functions/share/index.ts:51 | for a summary without `&`, reading `&lt;` back as `<` recovers it exactly |
| ShareFunction.EscapeMergesEntity | supabase/functions/share/index.ts:51 | a summary holding `&lt;` escapes to the same page text as one holding `<` |
| ShareFunction.PageShowsSummary | supabase/functions/share/index.ts:67 | the escaped summary sits in the `<pre>` block right after the page head |
| ShareFunction.PageShowsNameInTitle | supabase/functions/share/index.ts:56 | the stripped name is in the page's `<title>`, right after the opening lines |
| ShareFunction.PageShowsNameInHeading | supabase/functions/share/index.ts:66 | the stripped name is in the page's `<h1>`, right after the style sheet |
| ShareFunction.ShareKey | supabase/functions/share/index.ts:72 | the key starts with the timestamp and `-`, ends with `.html`, and has only allowed characters |
| ShareFunction.ShareKeyIsFlat | supabase/functions/share/index.ts:72 | the key holds no `/` |
| ShareFunction.UploadReply | supabase/functions/share/index.ts:78-81 | an upload error gives a 500 with its message; otherwise a 200 with the object's public address |
| ShareFunction.HandleShare | supabase/functions/share/index.ts:36-82 | 405, then 500 when not configured, then a crash on a `null` body, then 400 unless name and summary are truthy; otherwise the page is uploaded under its key and the reply follows the upload |
| ShareFunction.UploadsOnlyCompletePosts | supabase/functions/share/index.ts:36-82 | an object is uploaded exactly for a configured POST with a truthy name and summary, always under a flat `.html` key of allowed characters; the function answers only 200, 400, 405 or 500, or crashes |
| ShareFunction.DeployedShare | supabase/functions/share/index.ts:14-36 | behind `serve(withCORS(...))` a preflight uploads nothing; every returned response keeps its status and body and carries the origin and `application/json`; a crash becomes the bare 500 |
| OtpVerify.TypeForMode | src/pages/Verify.jsx:6-13 | the mode, read without case, maps `signup` to `signup`, `recovery` to `recovery` and anything else to `email` |
| OtpVerify.ModeParam | src/pages/Verify.jsx:18 | a missing or empty mode reads as `login` |
| OtpVerify.MissingModeMeansLogin | src/pages/Verify.jsx:18 | a page opened without a mode verifies a login (`email`) code |
| OtpVerify.TypeForModeIgnoresCase | src/pages/Verify.jsx:7 | lower-casing the mode first changes nothing |
| OtpVerify.CodeInput | src/pages/Verify.jsx:105 | the code box keeps only digits |
| OtpVerify.CodeInputKeepsDigits | src/pages/Verify.jsx:105 | every digit typed is kept as often as it was typed, and nothing else |
| OtpVerify.CodeInputIdempotent | src/pages/Verify.jsx:105 | filtering the box's contents again changes nothing |
| OtpVerify.CodeInputAppend | src/pages/Verify.jsx:105 | text pasted after the contents is filtered on its own |
| OtpVerify.TrimKeepsCode | src/pages/Verify.jsx:49 | trimming the box's digits removes nothing |
| OtpVerify.Submit | src/pages/Verify.jsx:39-70 | without a stored address nothing is sent; otherwise the trimmed code is verified with the mode's type; only a success followed by a live session goes to the dashboard and forgets the address, and every other path shows an error |
| OtpVerify.Settle | src/pages/Verify.jsx:52-66 | after the provider answers, the page keeps the request sent; it goes to the dashboard and forgets the address exactly on success with a live session; otherwise it shows the provider's message, or the no-session message |
| OtpVerify.OnOpen | src/pages/Verify.jsx:27-37 | an existing session goes straight to the dashboard |
| OtpVerify.ResendTypeAsWritten | src/pages/Verify.jsx:77 | the resend asks for a sign-up code exactly when the mode is spelled `signup`, and for an `email` code otherwise |
| OtpVerify.ResendDisagreesOnCapitals | src/pages/Verify.jsx:77 | for the mode `SIGNUP`, the page verifies a sign-up code but the resend as written asks for a login code |
| OtpVerify.ResendType | src/pages/Verify.jsx:77 | the corrected resend type is always `signup` or `email` |
| OtpVerify.ResendMatchesVerify | src/pages/Verify.jsx:77 | for sign-up and login pages in any spelling, the corrected resend asks for the kind of code the page verifies, and it matches the resend as written on the modes the app links to |
| OtpVerify.Resend | src/pages/Verify.jsx:72-86 | without a stored address nothing is sent; otherwise a code for that address is requested, a sign-up code exactly when the mode is spelled `signup` and an `email` code otherwise, and the notice is raised exactly when the provider reports no error |

## Left out

- `human(bytes)` (the size label) and the `toLocaleString` time labels are display strings. They appear in the model as inputs.
- PDF text extraction, image OCR and audio transcription are outside the model. This covers the extraction libraries, the `transcribe` function, and the `extractImageTextFromDoc` and `transcribeAudioForDoc` helpers. Their result is an input: a text, or a failure.
- `src/lib/supabase.js`, `src/lib/usage.js` and `src/lib/authHeaders.js` are not part of this model. They are client setup and helpers that the modelled code does not rely on.
- The remaining pages and components are not part of this model, and neither is rendering. This includes Login, Register, Reset, AuthCallback, Landing, the navbar and the notices.
- Concurrency is not modelled. React state updates are taken to apply in order, and the awaits inside a loop never interleave with another action.
- `shareSummary` on the dashboard (its clipboard and `alert`) is left out. The share function itself is modelled.
- `saveSummaryRow` is modelled only as the call it makes, with the path, name and summary it sends. The upsert's conflict handling belongs to the database.
- Strings are sequences of code points, while JavaScript strings are UTF-16. `slice` and the 200 000-character budgets therefore count astral characters once instead of twice.
- JSON numbers are integers. Fractions and the `Number` formatting of `String()` are not modelled.
- `toLowerCase` is modelled on ASCII letters only. Every word and suffix the code compares is ASCII.
- The upstream request's model name, token limit and temperature are not part of the model; the model keeps only the prompt it sends.
- Signed URLs and the public URL come from storage and are inputs. The one-hour expiry is not modelled.
- The 24-hour window of the usage counts lives inside the count query, which is an input.
- The code box's `maxLength={6}` is a browser limit and is not modelled.
- LibraryActions.RecordUsage: assumes that the `refreshUsage` after the insert reads back exactly the rows just written. The model does not re-read the database.
- GateAgreement.ClientAndServerAgree: compares the two checks on the same count. The dashboard counts events of kind `summary`/`question` and the gate counts kind `summarize`/`ask`; the model does not relate the two counts.
- GateAgreement.BatchAgreesWithServer: the same count is given to both sides, as in `GateAgreement.ClientAndServerAgree`.
- Completion.OutputText: the contract states only the case without an `output` array. The joined case is stated by `Completion.ReadsResponsesShape`.
- LibraryActions.SummarizeRound: batch logging writes one row per request (the corrected `Quota.RowsLogged`), not the single row the code writes; see Findings.
- LibraryActions.AskRound: batch logging writes one row per question, as in `LibraryActions.SummarizeRound`; see Findings.
- LibraryActions.AskRoundAddsOneEntryEach: assumes the targets have distinct ids. The dashboard keys records by storage path, but the model does not prove the list free of duplicates.
- LibraryActions.NullRead: the TypeError text is the one Chromium's V8 engine writes; Firefox and Safari word it differently.
- UsageGate.PrototypeKeys: the list is the standard `Object.prototype` members plus the legacy `__proto__` and `__define…__`/`__lookup…__` accessors. Properties that a runtime or a library adds to `Object.prototype` are not modelled.

## Findings

| source | as written | input that shows it | evidently intended | confidence | as-written member | corrected member |
|---|---|---|---|---|---|---|
| src/pages/Dashboard.jsx:402 | a batch of `n` summaries (and at line 460, of `n` questions) writes one usage row, although the quota check counts `n` and the comment says "usage +N" | a batch of 50 summaries and then a batch of 49 in the same day: the counter reads 1 after the first batch, so the second passes and 99 summaries are made against a limit of 50 | one usage row per request, so the counter matches the requests sent | medium, not executed | Quota.AsWrittenBatchesExceedQuota | Quota.CorrectedBatchesStayWithinQuota |
| src/pages/Verify.jsx:77 | the resend type compares the mode case-sensitively, while `typeForMode` lower-cases it | `?mode=SIGNUP`: the page verifies a sign-up code but asks for a login code when resending | the same case-insensitive reading as `typeForMode` | low, not executed (the app only links lower-case modes, so `OtpVerify.Resend` keeps the code as written) | OtpVerify.ResendDisagreesOnCapitals | OtpVerify.ResendMatchesVerify |

=== FILE: ask_function.dfy ===
/** The `ask` serverless function: builds one grounded prompt from up to ten documents
    and a question, sends it to the completion service and returns the answer. */
module AskFunction {
  import opened Wrappers
  import opened Text
  import opened Json
  import opened Http
  import opened Completion
  import opened Upstream

  const MaxDocs: nat := 10
  const MaxChars: nat := 200000

  /** How many documents enter the prompt. */
  function Used(n: nat): nat { Min(MaxDocs, n) }

  /** `Math.floor(MAX_CHARS / Math.min(MAX_DOCS, docs.length))`: each document's share,
      the largest that fits the used documents into the limit. */
  function Budget(n: nat): (b: nat)
    requires n > 0
    ensures Used(n) * b <= MaxChars
    ensures MaxChars < Used(n) * (b + 1)
  {
    var k := Used(n);
    assert k * (MaxChars / k) <= MaxChars < k * (MaxChars / k + 1) by {
      assert MaxChars == k * (MaxChars / k) + MaxChars % k;
    }
    MaxChars / k
  }

  /** `(d?.name ?? "Doc " + (i + 1)).toString()`. */
  function DocName(d: Json, i: nat): (r: string)
    ensures Member(Some(d), "name").Some? && Member(Some(d), "name").value.JStr? ==> r == Member(Some(d), "name").value.s
    ensures Nullish(Member(Some(d), "name")) ==> r == "Doc " + NatToString(i + 1)
  {
    var v := Member(Some(d), "name");
    if Nullish(v) then "Doc " + NatToString(i + 1) else ToStr(v.value)
  }

  /** `(d?.text ?? "").toString().slice(0, budget)`. */
  function DocText(d: Json, budget: nat): (r: string)
    ensures |r| <= budget
    ensures Member(Some(d), "text").Some? && Member(Some(d), "text").value.JStr? ==>
      r == TakeAtMost(Member(Some(d), "text").value.s, budget)
  {
    var v := Member(Some(d), "text");
    TakeAtMost(if Nullish(v) then "" else ToStr(v.value), budget)
  }

  function Section(d: Json, i: nat, budget: nat): string {
    "### " + DocName(d, i) + "\n" + DocText(d, budget)
  }

  /** One section per used document, in order, each with the same share. */
  function Sections(docs: seq<Json>): (r: seq<string>)
    requires |docs| > 0
    ensures |r| == Used(|docs|)
    ensures forall i :: 0 <= i < |r| ==> r[i] == Section(docs[i], i, Budget(|docs|))
  {
    var b := Budget(|docs|);
    seq(Used(|docs|), i requires 0 <= i < Used(|docs|) => Section(docs[i], i, b))
  }

  /** The documents part of the prompt. */
  function Corpus(docs: seq<Json>): string
    requires |docs| > 0
  {
    Join("\n\n", Sections(docs))
  }

  /** The document text characters in the first `n` sections. */
  function TextChars(docs: seq<Json>, budget: nat, n: nat): nat
    requires n <= |docs|
  {
    if n == 0 then 0 else TextChars(docs, budget, n - 1) + |DocText(docs[n - 1], budget)|
  }

  lemma {:induction false} TextCharsBound(docs: seq<Json>, budget: nat, n: nat)
    requires n <= |docs|
    ensures TextChars(docs, budget, n) <= n * budget
  {
    if n > 0 {
      TextCharsBound(docs, budget, n - 1);
      assert (n - 1) * budget + budget == n * budget;
    }
  }

  /** However many documents arrive, the document text in the prompt totals at most
      200 000 characters. */
  lemma CorpusTextWithinLimit(docs: seq<Json>)
    requires |docs| > 0
    ensures TextChars(docs, Budget(|docs|), Used(|docs|)) <= MaxChars
  {
    TextCharsBound(docs, Budget(|docs|), Used(|docs|));
  }

  /** Documents past the tenth are ignored: the corpus is that of the first ten. */
  lemma OnlyTenDocsUsed(docs: seq<Json>)
    requires |docs| >= MaxDocs
    ensures Corpus(docs) == Corpus(docs[..MaxDocs])
  {
    assert Budget(|docs|) == Budget(MaxDocs);
    assert Sections(docs) == Sections(docs[..MaxDocs]);
  }

  /** A lone document keeps up to the whole 200 000-character budget. */
  lemma SingleDocGetsWholeBudget(d: Json)
    ensures Corpus([d]) == "### " + DocName(d, 0) + "\n" + DocText(d, MaxChars)
  {
    assert Sections([d]) == [Section(d, 0, MaxChars)];
  }

  /** The instructions the prompt opens with. */
  const Instructions :=
    "You are a helpful assistant. Answer the user's question **using only** the provided documents.\n"
    + "If the answer is not present in the documents, say **\"I couldn't find that in the provided documents.\"**.\n"
    + "When possible, name the document you used.\n\nDocuments:\n"

  /** The prompt: the grounding instructions, the corpus, then the question. */
  function Prompt(corpus: string, question: string): (r: string)
    ensures StartsWith(r, Instructions + corpus + "\n\n")
    ensures EndsWith(r, "Question: " + question + "\n\nAnswer:")
  {
    var tail := "Question: " + question + "\n\nAnswer:";
    var r := Instructions + corpus + "\n\n" + tail;
    assert r[|r| - |tail|..] == tail;
    StartsWithAppend(Instructions + corpus + "\n\n", tail);
    r
  }

  /** The payload fields the function needs: a truthy question and a non-empty array of documents. */
  predicate WellFormed(p: Json) {
    && Truthy(Member(Some(p), "question"))
    && Member(Some(p), "docs").Some? && Member(Some(p), "docs").value.JArr?
    && |Member(Some(p), "docs").value.items| > 0
  }

  const BadPayload := ErrorReply(400, "Missing 'question' or 'docs'")
  const NoAnswer := "No answer generated."

  /** The prompt a well-formed payload produces. */
  function PromptFor(p: Json): string
    requires WellFormed(p)
  {
    Prompt(Corpus(Member(Some(p), "docs").value.items), ToStr(Member(Some(p), "question").value))
  }

  /** The corpus built from the payload's documents is what the prompt carries, right
      after the instructions. */
  lemma PromptCarriesCorpus(p: Json)
    requires WellFormed(p)
    ensures OccursAt(Corpus(Member(Some(p), "docs").value.items), PromptFor(p), |Instructions|)
  {
    var corpus := Corpus(Member(Some(p), "docs").value.items);
    var question := ToStr(Member(Some(p), "question").value);
    OccursSecondOfFour(Instructions, corpus, "\n\n", "Question: " + question + "\n\nAnswer:");
  }

  /** The handler: 405 for anything but POST, 400 for a payload without a question or
      documents, 500 without an API key; otherwise exactly the prompt for the payload
      goes out and the reply is answered as `Respond` says, under `answer`. */
  function HandleAsk(req: Request, apiKey: string, upstream: string -> Upstream): (r: Handled)
    ensures req.verb != "POST" ==> r == Handled(MethodNotAllowed, None)
    ensures req.verb == "POST" && !WellFormed(Payload(req)) ==> r == Handled(BadPayload, None)
    ensures req.verb == "POST" && WellFormed(Payload(req)) && apiKey == "" ==> r == Handled(MissingApiKey, None)
    ensures req.verb == "POST" && WellFormed(Payload(req)) && apiKey != "" ==>
      r == Handled(Respond(upstream(PromptFor(Payload(req))), "answer", NoAnswer), Some(PromptFor(Payload(req))))
  {
    if req.verb != "POST" then Handled(MethodNotAllowed, None)
    else
      var p := Payload(req);
      if !WellFormed(p) then Handled(BadPayload, None)
      else if apiKey == "" then Handled(MissingApiKey, None)
      else
        var prompt := PromptFor(p);
        Handled(Respond(upstream(prompt), "answer", NoAnswer), Some(prompt))
  }

  /** Only a POST with a well-formed payload and an API key reaches the completion service. */
  lemma ReachesUpstreamOnlyWhenValid(req: Request, apiKey: string, upstream: string -> Upstream)
    ensures HandleAsk(req, apiKey, upstream).prompt.Some? <==> req.verb == "POST" && WellFormed(Payload(req)) && apiKey != ""
  {
  }

  /** The function answers only 200, 400, 405, 500 or 502, and a prompt it sends ends
      with the payload's question. */
  lemma AskStatuses(req: Request, apiKey: string, upstream: string -> Upstream)
    ensures var r := HandleAsk(req, apiKey, upstream);
      r.outcome.Returned? ==> r.outcome.res.status in {200, 400, 405, 500, 502}
    ensures var r := HandleAsk(req, apiKey, upstream);
      r.prompt.Some? ==> EndsWith(r.prompt.value, "Question: " + ToStr(Member(Some(Payload(req)), "question").value) + "\n\nAnswer:")
  {
  }

  /** The deployed function, `serve(withCORS(handler))`: a preflight is answered without
      running the handler, so nothing is sent to the completion service; every response the handler returns
      leaves with its status and body, the allowed origin and `application/json`; a
      throw becomes the bare 500. */
  lemma DeployedAsk(origin: string, req: Request, apiKey: string, upstream: string -> Upstream)
    ensures var h := HandleAsk(req, apiKey, upstream);
      var res := Serve(WithFunctionCors(origin, (q: Request) => HandleAsk(q, apiKey, upstream).outcome, req));
      && (req.verb == "OPTIONS" ==> h.prompt.None? && res.status == 200 && HasHeader(res, AllowOrigin, origin))
      && (req.verb != "OPTIONS" && h.outcome.Returned? ==>
            && res.status == h.outcome.res.status && res.body == h.outcome.res.body
            && HasHeader(res, AllowOrigin, origin) && HasHeader(res, ContentType, "application/json"))
      && (req.verb != "OPTIONS" && h.outcome.Threw? ==> res == InternalError)
  {
  }
}

=== FILE: completion.dfy ===
/** Reading the generated text out of a completion service's reply (`extractText` in the
    ask and summarize functions). Two reply shapes are understood: a top-level
    `output_text`, a chat-style `choices[0].message.content`, and an `output` array whose
    items carry `content` parts with `text`. */
module Completion {
  import opened Wrappers
  import opened Text
  import opened Json

  /** `o?.content ?? []`, as `flatMap` sees it: an array contributes its elements, any
      other value contributes itself. */
  function ContentParts(o: Json): (r: seq<Json>)
    ensures Member(Some(o), "content").Some? && Member(Some(o), "content").value.JArr? ==>
      r == Member(Some(o), "content").value.items
    ensures Nullish(Member(Some(o), "content")) ==> r == []
  {
    var c := Coalesce(Member(Some(o), "content"), Some(JArr([])));
    if c.value.JArr? then c.value.items else [c.value]
  }

  /** `output.flatMap(o => o?.content ?? [])`. */
  function FlatParts(output: seq<Json>): (r: seq<Json>)
    ensures |output| == 0 ==> r == []
  {
    if output == [] then [] else ContentParts(output[0]) + FlatParts(output[1..])
  }

  /** `c?.text ?? c?.content ?? ""`, written out as `join` writes it. */
  function PartText(c: Json): (r: string)
    ensures Member(Some(c), "text").Some? && Member(Some(c), "text").value.JStr? ==>
      r == Member(Some(c), "text").value.s
    ensures Nullish(Member(Some(c), "text")) && Nullish(Member(Some(c), "content")) ==> r == ""
  {
    ToStr(Coalesce(Member(Some(c), "text"), Coalesce(Member(Some(c), "content"), Some(JStr("")))).value)
  }

  function PartTexts(parts: seq<Json>): (r: seq<string>)
    ensures |r| == |parts|
    ensures forall i :: 0 <= i < |parts| ==> r[i] == PartText(parts[i])
  {
    seq(|parts|, i requires 0 <= i < |parts| => PartText(parts[i]))
  }

  /** The chat-style candidate `j?.choices?.[0]?.message?.content`. */
  function ChatContent(j: Json): Value {
    Member(Member(First(Member(Some(j), "choices")), "message"), "content")
  }

  /** The last candidate: the joined parts of an `output` array, or `""`. */
  function OutputText(j: Json): (r: string)
    ensures !(Member(Some(j), "output").Some? && Member(Some(j), "output").value.JArr?) ==> r == ""
  {
    var out := Member(Some(j), "output");
    if out.Some? && out.value.JArr? then Join("\n", PartTexts(FlatParts(out.value.items))) else ""
  }

  /** `extractText(j)`: the first candidate that is neither null nor undefined; a string
      is trimmed and anything else gives `""`. */
  function ExtractText(j: Json): (r: string)
    ensures Trimmed(r)
    ensures var top := Member(Some(j), "output_text");
      && (top.Some? && top.value.JStr? ==> r == Trim(top.value.s))
      && (!Nullish(top) && !top.value.JStr? ==> r == "")
    ensures var top := Member(Some(j), "output_text"); var chat := ChatContent(j);
      Nullish(top) ==>
        && (chat.Some? && chat.value.JStr? ==> r == Trim(chat.value.s))
        && (!Nullish(chat) && !chat.value.JStr? ==> r == "")
        && (Nullish(chat) ==> r == Trim(OutputText(j)))
  {
    var a := Coalesce(Member(Some(j), "output_text"), Coalesce(ChatContent(j), Some(JStr(OutputText(j)))));
    if a.Some? && a.value.JStr? then Trim(a.value.s) else ""
  }

  /** An `output` item holding one text part. */
  function OutputItem(text: string): Json {
    Obj1("content", JArr([Obj1("text", JStr(text))]))
  }

  function OutputItems(texts: seq<string>): (r: seq<Json>)
    ensures |r| == |texts|
    ensures forall i :: 0 <= i < |texts| ==> r[i] == OutputItem(texts[i])
  {
    seq(|texts|, i requires 0 <= i < |texts| => OutputItem(texts[i]))
  }

  /** A Responses-style reply: `{ output: [{ content: [{ text }] }, …] }`. */
  function ResponsesReply(texts: seq<string>): Json {
    Obj1("output", JArr(OutputItems(texts)))
  }

  /** The parts an `output` holding `texts` flattens to. */
  function TextParts(texts: seq<string>): (r: seq<Json>)
    ensures |r| == |texts|
    ensures forall i :: 0 <= i < |texts| ==> r[i] == Obj1("text", JStr(texts[i]))
  {
    seq(|texts|, i requires 0 <= i < |texts| => Obj1("text", JStr(texts[i])))
  }

  lemma ContentOfItem(t: string)
    ensures ContentParts(OutputItem(t)) == [Obj1("text", JStr(t))]
  {
    assert Member(Some(OutputItem(t)), "content") == Some(JArr([Obj1("text", JStr(t))]));
  }

  lemma TextOfPart(t: string)
    ensures PartText(Obj1("text", JStr(t))) == t
  {
    assert Member(Some(Obj1("text", JStr(t))), "text") == Some(JStr(t));
  }

  lemma {:induction false} FlatPartsOfItems(texts: seq<string>)
    ensures FlatParts(OutputItems(texts)) == TextParts(texts)
  {
    var items := OutputItems(texts);
    if texts != [] {
      assert items[1..] == OutputItems(texts[1..]);
      FlatPartsOfItems(texts[1..]);
      ContentOfItem(texts[0]);
      assert items[0] == OutputItem(texts[0]);
      assert FlatParts(items) == ContentParts(items[0]) + FlatParts(items[1..]);
      var head := [Obj1("text", JStr(texts[0]))];
      var tail := TextParts(texts[1..]);
      assert forall i :: 0 <= i < |texts| ==> (head + tail)[i] == TextParts(texts)[i];
    }
  }

  lemma PartTextsOfItems(texts: seq<string>)
    ensures PartTexts(FlatParts(OutputItems(texts))) == texts
  {
    FlatPartsOfItems(texts);
    forall i | 0 <= i < |texts|
      ensures PartTexts(TextParts(texts))[i] == texts[i]
    {
      TextOfPart(texts[i]);
    }
  }

  /** A reply in the `output` shape yields its texts joined by newlines, trimmed. */
  lemma ReadsResponsesShape(texts: seq<string>)
    ensures ExtractText(ResponsesReply(texts)) == Trim(Join("\n", texts))
  {
    var j := ResponsesReply(texts);
    assert Member(Some(j), "output") == Some(JArr(OutputItems(texts)));
    PartTextsOfItems(texts);
    assert OutputText(j) == Join("\n", texts);
    assert Member(Some(j), "output_text").None?;
    assert Member(Some(j), "choices").None?;
    assert ChatContent(j).None?;
  }

  /** A chat-style reply `{ choices: [{ message: { content } }] }` yields its content, trimmed. */
  lemma ReadsChatShape(content: string)
    ensures ExtractText(Obj1("choices", JArr([Obj1("message", Obj1("content", JStr(content)))]))) == Trim(content)
  {
    var j := Obj1("choices", JArr([Obj1("message", Obj1("content", JStr(content)))]));
    assert Member(Some(j), "output_text").None?;
    assert ChatContent(j) == Some(JStr(content));
  }

  /** A top-level `output_text` wins over the other shapes. */
  lemma OutputTextWins(t: string, other: Json)
    ensures ExtractText(Obj2("output_text", JStr(t), "output", other)) == Trim(t)
  {
    var j := Obj2("output_text", JStr(t), "output", other);
    assert "output_text" in j.fields && j.fields["output_text"] == JStr(t);
    assert Member(Some(j), "output_text") == Some(JStr(t));
  }
}

/** What a serverless function gets back from the completion service. */
module Upstream {
  import opened Wrappers
  import opened Text
  import opened Json
  import opened Http
  import opened Completion

  /** `fetch` rejected, or a reply with its `ok` flag, its raw text and its parsed body
      (`None` when `res.json()` would throw). */
  datatype Upstream = FetchFailed | Reply(ok: bool, text: string, body: Option<Json>)

  /** A handler's outcome together with the prompt it sent, if any. */
  datatype Handled = Handled(outcome: Outcome, prompt: Option<string>)

  /** `new Response(JSON.stringify({ error }), { status })`. */
  function ErrorReply(status: int, message: string): (r: Outcome)
    ensures r.Returned? && r.res.status == status && r.res.body == JsonBody(Obj1("error", JStr(message)))
  {
    Returned(PlainJson(status, Obj1("error", JStr(message))))
  }

  const MethodNotAllowed := ErrorReply(405, "Method not allowed")
  const MissingApiKey := ErrorReply(500, "Server missing OPENAI_API_KEY")

  /** The body the function parsed, with `payload || {}` applied: an unreadable body
      or a falsy value reads as an empty object. */
  function Payload(req: Request): (r: Json)
    ensures Truthy(Some(r))
    ensures req.payload.Some? && Truthy(req.payload) ==> r == req.payload.value
  {
    if req.payload.Some? && Truthy(req.payload) then req.payload.value else JObj(map[])
  }

  /** `extractText(j) || fallback`. */
  function TextOr(j: Json, fallback: string): (r: string)
    ensures ExtractText(j) != "" ==> r == ExtractText(j)
    ensures ExtractText(j) == "" ==> r == fallback
    ensures r != "" && Trimmed(r) <== fallback != "" && Trimmed(fallback)
  {
    var t := ExtractText(j);
    if t != "" then t else fallback
  }

  /** How both generating functions turn the completion service's reply into their
      own: 502 with the upstream text on a failed reply, 200 with the extracted text
      (or the fallback) under `key` on a good one; a rejected `fetch` or an unparsable
      good reply throws. */
  function Respond(u: Upstream, key: string, fallback: string): (r: Outcome)
    ensures u.FetchFailed? ==> r.Threw?
    ensures u.Reply? && !u.ok ==>
      r == Returned(PlainJson(502, Obj2("error", JStr("OpenAI error"), "detail", JStr(u.text))))
    ensures u.Reply? && u.ok && u.body.None? ==> r.Threw?
    ensures u.Reply? && u.ok && u.body.Some? ==>
      r == Returned(PlainJson(200, Obj1(key, JStr(TextOr(u.body.value, fallback)))))
    ensures r.Returned? ==> r.res.status == 200 || r.res.status == 502
  {
    match u
    case FetchFailed => Threw
    case Reply(ok, text, body) =>
      if !ok then Returned(PlainJson(502, Obj2("error", JStr("OpenAI error"), "detail", JStr(text))))
      else if body.None? then Threw
      else Returned(PlainJson(200, Obj1(key, JStr(TextOr(body.value, fallback)))))
  }

  /** A 200 from `Respond` carries the extracted text, or the fallback when there is none. */
  lemma RespondOkCarriesText(u: Upstream, key: string, fallback: string)
    requires Respond(u, key, fallback).Returned? && Respond(u, key, fallback).res.status == 200
    requires fallback != "" && Trimmed(fallback)
    ensures u.Reply? && u.ok && u.body.Some?
    ensures exists a: string :: Respond(u, key, fallback).res.body == JsonBody(Obj1(key, JStr(a))) && a != "" && Trimmed(a)
  {
    var a := TextOr(u.body.value, fallback);
    assert Respond(u, key, fallback).res.body == JsonBody(Obj1(key, JStr(a)));
  }
}

=== FILE: doc_names.dfy ===
/** The dashboard's filename helpers: the type classifier `guessType` and the
    storage-name sanitiser `safeName`. */
module DocNames {
  import opened Text

  datatype DocType = Pdf | Image | Audio | File

  const ImageExtensions: seq<string> := ["png", "jpg", "jpeg", "gif", "webp", "bmp", "tiff"]
  const AudioExtensions: seq<string> := ["mp3", "m4a", "wav", "aac", "ogg", "flac"]

  /** `n` ends with a dot followed by one of `exts`: the regular expression `\.(e1|e2|…)$`. */
  predicate EndsWithExtension(n: string, exts: seq<string>) {
    exists i :: 0 <= i < |exts| && EndsWith(n, "." + exts[i])
  }

  /** The alternation tried one extension at a time. */
  function HasExtension(n: string, exts: seq<string>): (b: bool)
    ensures b <==> EndsWithExtension(n, exts)
  {
    if exts == [] then false
    else if EndsWith(n, "." + exts[0]) then true
    else
      var rest := HasExtension(n, exts[1..]);
      assert forall i :: 1 <= i < |exts| ==> exts[i] == exts[1..][i - 1];
      rest
  }

  /** `guessType`: the lower-cased name is matched against `.pdf`, then the image
      extensions, then the audio extensions; anything else is a plain file. */
  function GuessType(name: string): (r: DocType)
    ensures r == Pdf <==> EndsWith(ToLower(name), ".pdf")
    ensures r == Image <==>
      !EndsWith(ToLower(name), ".pdf") && EndsWithExtension(ToLower(name), ImageExtensions)
    ensures r == Audio <==>
      && !EndsWith(ToLower(name), ".pdf") && !EndsWithExtension(ToLower(name), ImageExtensions)
      && EndsWithExtension(ToLower(name), AudioExtensions)
    ensures r == File <==>
      && !EndsWith(ToLower(name), ".pdf") && !EndsWithExtension(ToLower(name), ImageExtensions)
      && !EndsWithExtension(ToLower(name), AudioExtensions)
  {
    var n := ToLower(name);
    if EndsWith(n, ".pdf") then Pdf
    else if HasExtension(n, ImageExtensions) then Image
    else if HasExtension(n, AudioExtensions) then Audio
    else File
  }

  /** The classifier ignores letter case. */
  lemma GuessTypeIgnoresCase(a: string, b: string)
    requires ToLower(a) == ToLower(b)
    ensures GuessType(a) == GuessType(b)
    ensures GuessType(ToLower(a)) == GuessType(a)
  {
    ToLowerIdempotent(a);
  }

  /** Case does not matter: an upper-case `.PDF` is still a PDF. */
  lemma GuessTypeExamples()
    ensures GuessType("A.PDF") == Pdf
  {
    assert ToLower("A.PDF") == "a.pdf";
  }

  // ---- safeName: `n.replace(/[^\w.\-]+/g, "_")`

  /** The regular-expression replacement scanned left to right: `inRun` holds while
      the scan is inside a run of replaced characters, whose `_` is already written. */
  function Collapse(s: string, inRun: bool): (r: string)
    ensures AllNameChars(r)
    ensures |r| <= |s|
  {
    if s == [] then []
    else if IsNameChar(s[0]) then [s[0]] + Collapse(s[1..], false)
    else if inRun then Collapse(s[1..], true)
    else "_" + Collapse(s[1..], true)
  }

  /** `safeName`: every maximal run of characters outside `[A-Za-z0-9_.-]` becomes one `_`. */
  function SafeName(n: string): (r: string)
    ensures AllNameChars(r)
    ensures |r| <= |n|
  {
    Collapse(n, false)
  }

  lemma {:induction false} CollapseOfNameChars(s: string, inRun: bool)
    requires AllNameChars(s)
    ensures Collapse(s, inRun) == s
  {
    if s != [] {
      CollapseOfNameChars(s[1..], false);
    }
  }

  /** A name already made of allowed characters is left alone. */
  lemma SafeNameOfNameChars(s: string)
    requires AllNameChars(s)
    ensures SafeName(s) == s
  {
    CollapseOfNameChars(s, false);
  }

  /** Sanitising twice is sanitising once. */
  lemma SafeNameIdempotent(s: string)
    ensures SafeName(SafeName(s)) == SafeName(s)
  {
    SafeNameOfNameChars(SafeName(s));
  }

  /** An allowed prefix is copied through unchanged. */
  lemma {:induction false} SafeNameKeepsAllowedPrefix(p: string, q: string)
    requires AllNameChars(p)
    ensures SafeName(p + q) == p + SafeName(q)
  {
    if p != [] {
      assert (p + q)[1..] == p[1..] + q;
      SafeNameKeepsAllowedPrefix(p[1..], q);
    } else {
      assert p + q == q;
    }
  }

  lemma {:induction false} CollapseSkipsRun(u: string, q: string)
    requires forall i :: 0 <= i < |u| ==> !IsNameChar(u[i])
    requires q == [] || IsNameChar(q[0])
    ensures Collapse(u + q, true) == Collapse(q, false)
  {
    if u != [] {
      assert (u + q)[1..] == u[1..] + q;
      CollapseSkipsRun(u[1..], q);
    } else {
      assert u + q == q;
    }
  }

  /** A maximal run of disallowed characters, however long, becomes exactly one `_`. */
  lemma SafeNameCollapsesRun(u: string, q: string)
    requires |u| > 0 && forall i :: 0 <= i < |u| ==> !IsNameChar(u[i])
    requires q == [] || IsNameChar(q[0])
    ensures SafeName(u + q) == "_" + SafeName(q)
  {
    assert (u + q)[1..] == u[1..] + q;
    CollapseSkipsRun(u[1..], q);
  }

  /** An allowed character other than `_`. */
  predicate IsNameLetter(c: char) { IsNameChar(c) && c != '_' }

  lemma {:induction false} CollapseKeepsLetters(s: string, inRun: bool)
    ensures Filter(Collapse(s, inRun), IsNameLetter) == Filter(s, IsNameLetter)
  {
    if s != [] {
      CollapseKeepsLetters(s[1..], !IsNameChar(s[0]));
      var head := if IsNameChar(s[0]) then [s[0]] else if inRun then [] else "_";
      assert Collapse(s, inRun) == head + Collapse(s[1..], !IsNameChar(s[0]));
      FilterAppend(head, Collapse(s[1..], !IsNameChar(s[0])), IsNameLetter);
    }
  }

  /** Apart from the `_` it writes, the sanitiser keeps exactly the allowed characters, in order. */
  lemma SafeNameKeepsLetters(s: string)
    ensures Filter(SafeName(s), IsNameLetter) == Filter(s, IsNameLetter)
  {
    CollapseKeepsLetters(s, false);
  }

  lemma SafeNameExamples()
    ensures SafeName("a //b") == "a_b"
  {
    SafeNameKeepsAllowedPrefix("a", " //b");
    SafeNameCollapsesRun(" //", "b");
    assert " //b" == " //" + "b";
    SafeNameOfNameChars("b");
  }
}

=== FILE: gate_agreement.dfy ===
/** The two quota checks side by side: the dashboard's check before a request and the
    shared server gate read the same limits, so given the same count of the past day
    they accept the same requests. The count itself is a parameter here: the dashboard
    counts events of kind `summary` and `question`, the gate counts events of the kind it
    guards, `summarize` or `ask`, and this module does not reconcile the two. */
module GateAgreement {
  import opened Wrappers
  import opened Quota
  import opened UsageGate

  /** For one summary or one question, the dashboard lets it through exactly when the
      server gate admits it, given the same count of the past day. */
  lemma ClientAndServerAgree(userId: string, summaries: nat, questions: nat)
    ensures CheckAndLogUsage(Some(userId), "summarize", Counted(Some(summaries))).reply.Admitted?
      <==> CheckSummaryLimit(Usage(summaries, questions), 1)
    ensures CheckAndLogUsage(Some(userId), "ask", Counted(Some(questions))).reply.Admitted?
      <==> CheckQuestionLimit(Usage(summaries, questions), 1)
  {
    assert Limit("summarize") == Number(SummaryDailyLimit);
    assert Limit("ask") == Number(QuestionDailyLimit);
  }

  /** The server admits a summary when the count of the past day is `base + k`. */
  predicate ServerAdmitsAt(userId: string, base: nat, k: nat) {
    CheckAndLogUsage(Some(userId), "summarize", Counted(Some(base + k))).reply.Admitted?
  }

  /** A batch of `n` passes the dashboard's check exactly when the server would admit
      each of its `n` requests in turn, the count growing by one with each. */
  lemma BatchAgreesWithServer(userId: string, summaries: nat, questions: nat, n: nat)
    requires n > 0
    ensures CheckSummaryLimit(Usage(summaries, questions), n) <==>
      forall k :: 0 <= k < n ==> ServerAdmitsAt(userId, summaries, k)
  {
    assert Limit("summarize") == Number(SummaryDailyLimit);
    if !CheckSummaryLimit(Usage(summaries, questions), n) {
      assert !ServerAdmitsAt(userId, summaries, n - 1);
    }
  }
}

=== FILE: http.dfy ===
/** HTTP requests and responses as the serverless functions see them, the `json`
    helper and the two `withCORS` wrappers (the shared one, and the copy each
    function carries). Header names are lower-case, as the Fetch API's `Headers` keeps them. */
module Http {
  import opened Wrappers
  import opened Json

  datatype Body = NoBody | JsonBody(value: Json) | TextBody(text: string)

  datatype Response = Response(status: int, headers: map<string, string>, body: Body)

  /** `verb` is the HTTP method; `payload` is what `req.json()` yields, `None` when the body is not JSON. */
  datatype Request = Request(verb: string, headers: map<string, string>, payload: Option<Json>)

  /** What a request handler did: returned a response, or threw. */
  datatype Outcome = Returned(res: Response) | Threw

  const ContentType := "content-type"
  const AllowOrigin := "access-control-allow-origin"
  const AllowMethods := "access-control-allow-methods"
  const AllowHeaders := "access-control-allow-headers"
  const MaxAge := "access-control-max-age"
  const VaryHeader := "vary"
  const RequestHeaders := "access-control-request-headers"

  /** Header `name` is present with value `value`. */
  predicate HasHeader(res: Response, name: string, value: string) {
    name in res.headers && res.headers[name] == value
  }

  const DefaultOrigin := "http://localhost:5173"
  /** The header list the shared preflight answers with when the browser names none. */
  const DefaultAllowHeaders := "authorization, apikey, content-type"
  /** The header list every function's own preflight answers with. */
  const FunctionAllowHeaders := "authorization, apikey, content-type, x-client-info"

  /** `Deno.env.get("ALLOWED_ORIGIN") || "http://localhost:5173"`. */
  function AllowedOrigin(env: Option<string>): (r: string)
    ensures env.Some? && env.value != "" ==> r == env.value
    ensures env.None? || env.value == "" ==> r == DefaultOrigin
  {
    if env.Some? && env.value != "" then env.value else DefaultOrigin
  }

  /** The shared `json(body, status = 200)` helper. */
  function JsonResponse(body: Json, status: int := 200): (r: Response)
    ensures r.status == status && r.body == JsonBody(body)
    ensures r.headers.Keys == {ContentType} && r.headers[ContentType] == "application/json"
  {
    Response(status, map[ContentType := "application/json"], JsonBody(body))
  }

  /** `new Response(JSON.stringify(body), { status })`: a string body, so the
      Fetch API labels it as plain text. */
  function PlainJson(status: int, body: Json): (r: Response)
    ensures r.status == status && r.body == JsonBody(body)
    ensures !HasHeader(r, ContentType, "application/json")
  {
    Response(status, map[ContentType := "text/plain;charset=UTF-8"], JsonBody(body))
  }

  /** The response the standard-library `serve` sends when a handler throws. */
  const InternalError := Response(500, map[ContentType := "text/plain;charset=UTF-8"], TextBody("Internal Server Error"))

  /** `serve`: a thrown exception becomes a bare 500. */
  function Serve(o: Outcome): (r: Response)
    ensures o.Returned? ==> r == o.res
    ensures o.Threw? ==> r.status == 500 && AllowOrigin !in r.headers
  {
    match o
    case Returned(res) => res
    case Threw => InternalError
  }

  function Preflight(origin: string, allowHeaders: string): Response {
    Response(200,
      map[AllowOrigin := origin, AllowMethods := "POST, OPTIONS", AllowHeaders := allowHeaders, MaxAge := "86400"],
      NoBody)
  }

  /** The header list a preflight asked for, or the default when it asked for none. */
  function RequestedHeaders(req: Request): (r: string)
    ensures RequestHeaders in req.headers && req.headers[RequestHeaders] != "" ==> r == req.headers[RequestHeaders]
    ensures !(RequestHeaders in req.headers && req.headers[RequestHeaders] != "") ==> r == DefaultAllowHeaders
  {
    if RequestHeaders in req.headers && req.headers[RequestHeaders] != "" then req.headers[RequestHeaders]
    else DefaultAllowHeaders
  }

  /** The shared `withCORS`: OPTIONS is answered without calling the handler; any other
      request gets the handler's status and body with the origin and `Vary` headers added. */
  function WithCors(origin: string, handler: Request -> Outcome, req: Request): (r: Outcome)
    ensures req.verb == "OPTIONS" ==>
      && r.Returned? && r.res.status == 200 && r.res.body == NoBody
      && HasHeader(r.res, AllowOrigin, origin)
      && HasHeader(r.res, AllowHeaders, RequestedHeaders(req))
    ensures req.verb != "OPTIONS" && handler(req).Threw? ==> r.Threw?
    ensures req.verb != "OPTIONS" && handler(req).Returned? ==>
      var res := handler(req).res;
      && r.Returned? && r.res.status == res.status && r.res.body == res.body
      && HasHeader(r.res, AllowOrigin, origin) && HasHeader(r.res, VaryHeader, "Origin")
      && r.res.headers.Keys == res.headers.Keys + {AllowOrigin, VaryHeader}
      && (forall k :: k in res.headers && k != AllowOrigin && k != VaryHeader ==> HasHeader(r.res, k, res.headers[k]))
  {
    if req.verb == "OPTIONS" then Returned(Preflight(origin, RequestedHeaders(req)))
    else
      match handler(req)
      case Threw => Threw
      case Returned(res) =>
        Returned(Response(res.status, res.headers[AllowOrigin := origin][VaryHeader := "Origin"], res.body))
  }

  /** The `withCORS` copy inside each function: a fixed preflight header list, and every
      other response is also labelled `application/json`. */
  function WithFunctionCors(origin: string, handler: Request -> Outcome, req: Request): (r: Outcome)
    ensures req.verb == "OPTIONS" ==>
      && r.Returned? && r.res.status == 200 && r.res.body == NoBody
      && HasHeader(r.res, AllowOrigin, origin)
      && HasHeader(r.res, AllowHeaders, FunctionAllowHeaders)
    ensures req.verb != "OPTIONS" && handler(req).Threw? ==> r.Threw?
    ensures req.verb != "OPTIONS" && handler(req).Returned? ==>
      var res := handler(req).res;
      && r.Returned? && r.res.status == res.status && r.res.body == res.body
      && HasHeader(r.res, AllowOrigin, origin) && HasHeader(r.res, VaryHeader, "Origin")
      && HasHeader(r.res, ContentType, "application/json")
  {
    if req.verb == "OPTIONS" then Returned(Preflight(origin, FunctionAllowHeaders))
    else
      match handler(req)
      case Threw => Threw
      case Returned(res) =>
        Returned(Response(res.status,
          res.headers[AllowOrigin := origin][VaryHeader := "Origin"][ContentType := "application/json"],
          res.body))
  }
}

=== FILE: json.dfy ===
/** A small JSON value type with the JavaScript operations the server functions
    apply to parsed request and response bodies: optional property access (`?.`),
    nullish coalescing (`??`), truthiness and `String(v)`. */
module Json {
  import opened Wrappers
  import opened Text

  /** A parsed JSON value. Numbers are integers; object keys are unique, as after `JSON.parse`. */
  datatype Json =
    | JNull
    | JBool(b: bool)
    | JNum(n: int)
    | JStr(s: string)
    | JArr(items: seq<Json>)
    | JObj(fields: map<string, Json>)

  /** A JavaScript value read out of JSON: `None` is `undefined`. */
  type Value = Option<Json>

  function Obj1(k: string, v: Json): Json { JObj(map[k := v]) }

  function Obj2(k1: string, v1: Json, k2: string, v2: Json): Json {
    JObj(map[k1 := v1, k2 := v2])
  }

  /** `v == null`: undefined or null. */
  predicate Nullish(v: Value) {
    v.None? || v.value.JNull?
  }

  /** `a ?? b`. */
  function Coalesce(a: Value, b: Value): (r: Value)
    ensures !Nullish(a) ==> r == a
    ensures Nullish(a) ==> r == b
  {
    if Nullish(a) then b else a
  }

  /** `v?.key`: undefined on a nullish value, the field of an object, and undefined on
      anything else (arrays, strings, numbers and booleans carry none of the keys read here). */
  function Member(v: Value, key: string): (r: Value)
    ensures r.Some? ==> v.Some? && v.value.JObj? && key in v.value.fields
  {
    if v.Some? && v.value.JObj? && key in v.value.fields then Some(v.value.fields[key]) else None
  }

  /** `v?.[0]`: the first element of an array, the first character of a string, the field `"0"` of an object. */
  function First(v: Value): Value {
    if v.None? then None
    else match v.value
      case JArr(items) => if |items| > 0 then Some(items[0]) else None
      case JStr(s) => if |s| > 0 then Some(JStr([s[0]])) else None
      case JObj(fields) => if "0" in fields then Some(fields["0"]) else None
      case _ => None
  }

  /** JavaScript truthiness: `undefined`, `null`, `false`, `0` and `""` are falsy. */
  predicate Truthy(v: Value) {
    match v
    case None => false
    case Some(j) =>
      match j
      case JNull => false
      case JBool(b) => b
      case JNum(n) => n != 0
      case JStr(s) => s != ""
      case _ => true
  }

  /** `String(j)`, which is also what a template literal and `toString()` produce. */
  function ToStr(j: Json): (r: string)
    ensures j.JStr? ==> r == j.s
    decreases j, 1
  {
    match j
    case JNull => "null"
    case JBool(b) => if b then "true" else "false"
    case JNum(n) => IntToString(n)
    case JStr(s) => s
    case JArr(items) => ArrayToStr(j, 0)
    case JObj(_) => "[object Object]"
  }

  /** `items.slice(i).join(",")`, where `join` writes `null` as the empty string. */
  function ArrayToStr(a: Json, i: nat): string
    requires a.JArr? && i <= |a.items|
    decreases a, 0, |a.items| - i
  {
    if i == |a.items| then ""
    else
      var head := if a.items[i].JNull? then "" else ToStr(a.items[i]);
      if i + 1 == |a.items| then head else head + "," + ArrayToStr(a, i + 1)
  }

  /** `String(v)` for a value known not to be `undefined`; `undefined` itself reads as `""`. */
  function ValueToStr(v: Value): string {
    if v.None? then "" else ToStr(v.value)
  }
}

=== FILE: library.dfy ===
/** The dashboard's document library: an in-memory list of document records keyed
    by `id`, the selection, the active document and the per-document answer
    history, and the transitions the upload, lazy-extraction, selection and
    reload actions make. Storage, extraction and clocks are inputs. */
module Library {
  import opened Wrappers
  import opened Text
  import opened DocNames
  import opened Quota

  /** A document record. `text` is `None` until extraction ran; `size` and
      `updatedAt` are display strings computed outside the model. */
  datatype Doc = Doc(
    id: string, name: string, kind: DocType, path: string, url: Option<string>,
    size: string, text: Option<string>, summary: string, updatedAt: string)

  /** One entry of a document's answer history. */
  datatype QA = QA(q: string, a: string, at: int)

  /** The dashboard's state. `draft` is the question box; `alert` the last modal alert. */
  datatype Dashboard = Dashboard(
    user: Option<string>,
    docs: seq<Doc>,
    selected: seq<string>,
    active: Option<string>,
    answers: map<string, seq<QA>>,
    draft: string,
    usage: Usage,
    err: string,
    alert: string)

  /** The placeholder summary a record shows before it has one. */
  const NoSummary := "—"

  /** `doc.text` is truthy: extraction produced a non-empty text. */
  predicate HasText(d: Doc) {
    d.text.Some? && d.text.value != ""
  }

  /** `docs.filter(keep)`: every kept record as often as it occurs, and no other. */
  function Keep(docs: seq<Doc>, keep: Doc -> bool): (r: seq<Doc>)
    ensures |r| <= |docs|
    ensures forall d :: d in r <==> d in docs && keep(d)
  {
    if docs == [] then []
    else (if keep(docs[0]) then [docs[0]] else []) + Keep(docs[1..], keep)
  }

  /** Filtering keeps each kept record as often as it occurs, and drops the rest. */
  lemma {:induction false} KeepCounts(docs: seq<Doc>, keep: Doc -> bool)
    ensures forall d :: multiset(Keep(docs, keep))[d] == if keep(d) then multiset(docs)[d] else 0
  {
    if docs != [] {
      KeepCounts(docs[1..], keep);
      assert docs == [docs[0]] + docs[1..];
    }
  }

  /** Filtering keeps the order: filtering a concatenation concatenates the filtered parts. */
  lemma {:induction false} KeepAppend(a: seq<Doc>, b: seq<Doc>, keep: Doc -> bool)
    ensures Keep(a + b, keep) == Keep(a, keep) + Keep(b, keep)
  {
    if a == [] {
      assert a + b == b;
    } else {
      assert (a + b)[1..] == a[1..] + b;
      KeepAppend(a[1..], b, keep);
    }
  }

  lemma {:induction false} KeepAll(docs: seq<Doc>, keep: Doc -> bool)
    requires forall d :: d in docs ==> keep(d)
    ensures Keep(docs, keep) == docs
  {
    if docs != [] {
      KeepAll(docs[1..], keep);
    }
  }

  /** `docs.filter(d => d.id !== id)`. */
  function WithoutId(docs: seq<Doc>, id: string): (r: seq<Doc>)
    ensures |r| <= |docs|
    ensures forall d :: d in r <==> d in docs && d.id != id
  {
    Keep(docs, (d: Doc) => d.id != id)
  }

  /** Removing an id keeps every other record as often as it occurs. */
  lemma WithoutIdCounts(docs: seq<Doc>, id: string)
    ensures forall d :: multiset(WithoutId(docs, id))[d] == if d.id != id then multiset(docs)[d] else 0
  {
    KeepCounts(docs, (d: Doc) => d.id != id);
  }

  /** Removing an id keeps the order of the records that stay. */
  lemma WithoutIdAppend(a: seq<Doc>, b: seq<Doc>, id: string)
    ensures WithoutId(a + b, id) == WithoutId(a, id) + WithoutId(b, id)
  {
    KeepAppend(a, b, (d: Doc) => d.id != id);
  }

  /** Removing an id that no record carries changes nothing. */
  lemma WithoutAbsentId(docs: seq<Doc>, id: string)
    requires forall d :: d in docs ==> d.id != id
    ensures WithoutId(docs, id) == docs
  {
    KeepAll(docs, (d: Doc) => d.id != id);
  }

  /** `docs.find(d => d.id === id)`: the first record with that id. */
  function FindDoc(docs: seq<Doc>, id: Option<string>): (r: Option<Doc>)
    ensures r.Some? ==> id.Some? && r.value in docs && r.value.id == id.value
    ensures r.Some? ==> exists i :: 0 <= i < |docs| && docs[i] == r.value && NoIdBefore(docs, i, id.value)
    ensures r.None? ==> id.None? || forall d :: d in docs ==> d.id != id.value
  {
    if id.None? || docs == [] then None
    else if docs[0].id == id.value then
      assert NoIdBefore(docs, 0, id.value);
      Some(docs[0])
    else
      var r := FindDoc(docs[1..], id);
      assert r.Some? ==> exists i :: 0 <= i < |docs| && docs[i] == r.value && NoIdBefore(docs, i, id.value) by {
        if r.Some? {
          var j :| 0 <= j < |docs[1..]| && docs[1..][j] == r.value && NoIdBefore(docs[1..], j, id.value);
          assert docs[j + 1] == r.value;
          assert NoIdBefore(docs, j + 1, id.value) by {
            forall k | 0 <= k < j + 1 ensures docs[k].id != id.value {
              if k > 0 { assert docs[k] == docs[1..][k - 1]; }
            }
          }
        }
      }
      r
  }

  /** No record before position `i` carries `id`. */
  predicate NoIdBefore(docs: seq<Doc>, i: nat, id: string)
    requires i <= |docs|
  {
    forall k :: 0 <= k < i ==> docs[k].id != id
  }

  /** `docs.map(d => d.id === id ? change(d) : d)`. */
  function UpdateWhere(docs: seq<Doc>, id: string, change: Doc -> Doc): (r: seq<Doc>)
    ensures |r| == |docs|
    ensures forall i :: 0 <= i < |docs| && docs[i].id != id ==> r[i] == docs[i]
    ensures forall i :: 0 <= i < |docs| && docs[i].id == id ==> r[i] == change(docs[i])
  {
    seq(|docs|, i requires 0 <= i < |docs| => if docs[i].id == id then change(docs[i]) else docs[i])
  }

  // ---- Upload (`handleUpload`)

  /** A file picked for upload: its name and its size as displayed. */
  datatype FileInput = FileInput(name: string, size: string)

  /** What an extractor produced, or that it threw. */
  datatype Extraction = Extracted(text: string) | ExtractionFailed

  /** What the outside world did for one uploaded file: the clock reading used in
      its storage path, the storage upload's error, the signed URL and the extraction. */
  datatype UploadResult = UploadResult(
    stamp: nat, uploadError: Option<string>, signedUrl: Option<string>, extraction: Extraction)

  /** `${user.id}/${Date.now()}-${safeName(file.name)}`. */
  function StoragePath(userId: string, stamp: nat, fileName: string): (r: string)
    ensures StartsWith(r, userId + "/")
    ensures AllNameChars(r[|userId| + 1..])
  {
    var tail := NatToString(stamp) + "-" + SafeName(fileName);
    assert AllNameChars(tail);
    assert (userId + "/" + tail)[|userId| + 1..] == tail;
    userId + "/" + tail
  }

  const TempSuffix := "::temp"

  /** The id of the optimistic placeholder for `path`. */
  function TempId(path: string): string { path + TempSuffix }

  predicate IsPlaceholderId(id: string) { EndsWith(id, TempSuffix) }

  /** No optimistic placeholder is in the list. */
  predicate NoPlaceholders(docs: seq<Doc>) {
    forall d :: d in docs ==> !IsPlaceholderId(d.id)
  }

  /** A storage path never looks like a placeholder id: its file part has no `:`,
      and `::temp` has no `/`. */
  lemma StoragePathIsNotPlaceholder(userId: string, stamp: nat, fileName: string)
    ensures !IsPlaceholderId(StoragePath(userId, stamp, fileName))
  {
    var p := StoragePath(userId, stamp, fileName);
    if |p| >= |TempSuffix| {
      var k := |p| - |TempSuffix|;
      if k >= |userId| + 1 {
        assert p[k..][0] == p[|userId| + 1..][k - |userId| - 1];
        assert p[k..][0] != TempSuffix[0];
      } else {
        assert p[k..][|userId| - k] == p[|userId|] == '/';
        assert TempSuffix[|userId| - k] != '/';
      }
    }
  }

  /** In a list without placeholders the new placeholder's id is fresh, so removing
      it removes nothing else, and the finalized record is no placeholder either. */
  lemma FreshPlaceholder(docs: seq<Doc>, userId: string, stamp: nat, fileName: string)
    ensures !IsPlaceholderId(StoragePath(userId, stamp, fileName))
    ensures NoPlaceholders(docs) ==> WithoutId(docs, TempId(StoragePath(userId, stamp, fileName))) == docs
  {
    var tempId := TempId(StoragePath(userId, stamp, fileName));
    StoragePathIsNotPlaceholder(userId, stamp, fileName);
    if NoPlaceholders(docs) {
      assert IsPlaceholderId(tempId) by { assert tempId[|tempId| - |TempSuffix|..] == TempSuffix; }
      WithoutAbsentId(docs, tempId);
    }
  }

  /** The record shown while the file uploads. */
  function Placeholder(file: FileInput, path: string): Doc {
    Doc(TempId(path), file.name, GuessType(file.name), path, None, file.size, None, NoSummary, "uploading…")
  }

  /** The text an upload stores: the extractor's output for a PDF, image or audio file,
      empty when it threw, and empty without extraction for any other file. */
  function UploadText(kind: DocType, e: Extraction): string {
    if kind == File then ""
    else match e
      case Extracted(t) => t
      case ExtractionFailed => ""
  }

  /** The record that replaces the placeholder once storage accepted the file. */
  function Finalized(file: FileInput, path: string, url: Option<string>, text: string): Doc {
    Doc(path, file.name, GuessType(file.name), path, url, file.size, Some(text), NoSummary, "just now")
  }

  /** The optimistic step: the placeholder goes to the head of the list. */
  function StageUpload(docs: seq<Doc>, placeholder: Doc): seq<Doc> {
    [placeholder] + docs
  }

  /** Upload error: exactly the placeholder is removed. */
  function AbortUpload(docs: seq<Doc>, tempId: string): seq<Doc> {
    WithoutId(docs, tempId)
  }

  /** Upload success: the finalized record replaces the placeholder at the head. */
  function CompleteUpload(docs: seq<Doc>, tempId: string, finalized: Doc): seq<Doc> {
    [finalized] + WithoutId(docs, tempId)
  }

  /** Staging then aborting gives back the list as it was, when the placeholder's id was new. */
  lemma AbortUndoesStage(docs: seq<Doc>, placeholder: Doc)
    requires forall d :: d in docs ==> d.id != placeholder.id
    ensures AbortUpload(StageUpload(docs, placeholder), placeholder.id) == docs
  {
    assert StageUpload(docs, placeholder) == [placeholder] + docs;
    assert ([placeholder] + docs)[1..] == docs;
    WithoutAbsentId(docs, placeholder.id);
  }

  /** One file of `handleUpload`, for the signed-in user `userId`. */
  function UploadOne(s: Dashboard, userId: string, file: FileInput, o: UploadResult): (r: Dashboard)
    ensures var path := StoragePath(userId, o.stamp, file.name);
      var staged := StageUpload(s.docs, Placeholder(file, path));
      && (o.uploadError.Some? ==>
            && r.docs == AbortUpload(staged, TempId(path))
            && r.err == (if o.uploadError.value != "" then o.uploadError.value else "Upload failed")
            && r.selected == s.selected && r.active == s.active)
      && (o.uploadError.None? ==>
            && |r.docs| > 0 && r.docs[0].id == path && r.docs[0].path == path
            && r.docs[0].text == Some(UploadText(GuessType(file.name), o.extraction))
            && r.docs[1..] == WithoutId(staged, TempId(path))
            && r.active == Some(path) && r.selected == [path])
    ensures r.answers == s.answers && r.usage == s.usage && r.user == s.user
    ensures NoPlaceholders(s.docs) ==> NoPlaceholders(r.docs)
    ensures NoPlaceholders(s.docs) && o.uploadError.Some? ==> r.docs == s.docs
    ensures NoPlaceholders(s.docs) && o.uploadError.None? ==> |r.docs| == |s.docs| + 1 && r.docs[1..] == s.docs
  {
    var path := StoragePath(userId, o.stamp, file.name);
    var tempId := TempId(path);
    var staged := StageUpload(s.docs, Placeholder(file, path));
    assert staged[1..] == s.docs;
    FreshPlaceholder(s.docs, userId, o.stamp, file.name);
    if o.uploadError.Some? then
      var msg := o.uploadError.value;
      s.(docs := AbortUpload(staged, tempId), err := if msg != "" then msg else "Upload failed")
    else
      var text := UploadText(GuessType(file.name), o.extraction);
      s.(docs := CompleteUpload(staged, tempId, Finalized(file, path, o.signedUrl, text)),
         active := Some(path), selected := [path])
  }

  /** A suffix of a suffix is a suffix. */
  lemma SuffixOfSuffix(a: seq<Doc>, b: seq<Doc>, c: seq<Doc>)
    ensures |b| <= |a| && a[|a| - |b|..] == b && |c| <= |b| && b[|b| - |c|..] == c ==>
      a[|a| - |c|..] == c
  {
    if |b| <= |a| && a[|a| - |b|..] == b && |c| <= |b| && b[|b| - |c|..] == c {
      assert a[|a| - |c|..] == a[|a| - |b|..][|b| - |c|..];
    }
  }

  /** How many of the files from index `i` on were accepted by storage. */
  function UploadedCount(files: seq<FileInput>, results: nat -> UploadResult, i: nat): nat
    decreases |files| - i
  {
    if i >= |files| then 0
    else (if results(i).uploadError.None? then 1 else 0) + UploadedCount(files, results, i + 1)
  }

  /** The files from index `i` on, one after another; `results(i)` is the i-th file's outcome. */
  function UploadFrom(s: Dashboard, userId: string, files: seq<FileInput>, results: nat -> UploadResult, i: nat): (r: Dashboard)
    decreases |files| - i
    ensures NoPlaceholders(s.docs) ==> NoPlaceholders(r.docs)
    ensures NoPlaceholders(s.docs) ==>
      && |r.docs| == |s.docs| + UploadedCount(files, results, i)
      && r.docs[|r.docs| - |s.docs|..] == s.docs
    ensures r.answers == s.answers && r.usage == s.usage && r.user == s.user
  {
    if i >= |files| then s
    else
      var next := UploadOne(s, userId, files[i], results(i));
      var r := UploadFrom(next, userId, files, results, i + 1);
      SuffixOfSuffix(r.docs, next.docs, s.docs);
      r
  }

  const NotLoggedIn := "You must be logged in."

  /** `handleUpload`: refuse without a user, do nothing for an empty pick, else upload
      each file in turn. Every accepted file adds one record at the head; a refused
      one leaves the list as it was; no placeholder outlives its file. */
  function HandleUpload(s: Dashboard, files: seq<FileInput>, results: nat -> UploadResult): (r: Dashboard)
    ensures s.user.None? ==> r == s.(err := NotLoggedIn)
    ensures s.user.Some? && files == [] ==> r == s
    ensures NoPlaceholders(s.docs) ==> NoPlaceholders(r.docs)
    ensures s.user.Some? && NoPlaceholders(s.docs) ==>
      && |r.docs| == |s.docs| + UploadedCount(files, results, 0)
      && r.docs[|r.docs| - |s.docs|..] == s.docs
  {
    if s.user.None? then s.(err := NotLoggedIn)
    else if files == [] then s
    else UploadFrom(s, s.user.value, files, results, 0)
  }

  // ---- Lazy extraction (`ensureText`)

  const ExtractError := "Could not extract text for this file."

  /** The text `ensureText` computes: a plain file gets `""` without extraction;
      the others get the extractor's text, or nothing when it threw. */
  function LazyText(kind: DocType, e: Extraction): Option<string> {
    if kind == File then Some("")
    else match e
      case Extracted(t) => Some(t)
      case ExtractionFailed => None
  }

  /** `ensureText(doc)`: nothing to do without a record or when it already has text;
      otherwise exactly the records with the document's id get the new text, and
      an extraction error leaves the list alone and reports. */
  function EnsureText(s: Dashboard, doc: Option<Doc>, e: Extraction): (r: Dashboard)
    ensures doc.None? || HasText(doc.value) ==> r == s
    ensures doc.Some? && !HasText(doc.value) && LazyText(doc.value.kind, e).None? ==>
      r == s.(err := ExtractError)
    ensures doc.Some? && !HasText(doc.value) && LazyText(doc.value.kind, e).Some? ==>
      && r == s.(docs := r.docs)
      && |r.docs| == |s.docs|
      && (forall i :: 0 <= i < |s.docs| && s.docs[i].id != doc.value.id ==> r.docs[i] == s.docs[i])
      && (forall i :: 0 <= i < |s.docs| && s.docs[i].id == doc.value.id ==>
            r.docs[i] == s.docs[i].(text := LazyText(doc.value.kind, e)))
  {
    if doc.None? || HasText(doc.value) then s
    else
      var t := LazyText(doc.value.kind, e);
      if t.None? then s.(err := ExtractError)
      else s.(docs := UpdateWhere(s.docs, doc.value.id, (d: Doc) => d.(text := t)))
  }

  /** Once extraction stored a non-empty text, asking again changes nothing, whatever
      the extractor would do now. */
  lemma EnsureTextIdempotent(s: Dashboard, i: nat, e: Extraction, again: Extraction)
    requires 0 <= i < |s.docs| && !HasText(s.docs[i])
    requires LazyText(s.docs[i].kind, e).Some? && LazyText(s.docs[i].kind, e).value != ""
    ensures var r := EnsureText(s, Some(s.docs[i]), e);
      && HasText(r.docs[i])
      && EnsureText(r, Some(r.docs[i]), again) == r
  {
  }

  // ---- Selection

  /** `xs.filter(x => x !== v)`. */
  function RemoveAll(xs: seq<string>, v: string): (r: seq<string>)
    ensures forall x :: x in r <==> x in xs && x != v
  {
    if xs == [] then []
    else (if xs[0] != v then [xs[0]] else []) + RemoveAll(xs[1..], v)
  }

  lemma {:induction false} RemoveAbsent(xs: seq<string>, v: string)
    requires v !in xs
    ensures RemoveAll(xs, v) == xs
  {
    if xs != [] {
      RemoveAbsent(xs[1..], v);
    }
  }

  /** The checkbox: deselect a selected id, otherwise append it. */
  function ToggleSelected(selected: seq<string>, id: string): (r: seq<string>)
    ensures id in r <==> id !in selected
    ensures forall x :: x != id ==> (x in r <==> x in selected)
  {
    if id in selected then RemoveAll(selected, id) else selected + [id]
  }

  /** Ticking a box and unticking it again restores the selection. */
  lemma ToggleTwice(selected: seq<string>, id: string)
    requires id !in selected
    ensures ToggleSelected(ToggleSelected(selected, id), id) == selected
  {
    RemoveAbsent(selected, id);
    assert ToggleSelected(selected, id) == selected + [id];
    assert RemoveAll(selected + [id], id) == RemoveAll(selected, id) by {
      RemoveAllAppend(selected, [id], id);
    }
  }

  lemma {:induction false} RemoveAllAppend(a: seq<string>, b: seq<string>, v: string)
    ensures RemoveAll(a + b, v) == RemoveAll(a, v) + RemoveAll(b, v)
  {
    if a == [] {
      assert a + b == b;
    } else {
      assert (a + b)[1..] == a[1..] + b;
      RemoveAllAppend(a[1..], b, v);
    }
  }

  /** Clicking a record, the state changes made before the text is fetched: it becomes active,
      and the only selection unless it was already selected. The click then fetches the
      text, which `ClickDoc` composes in. */
  function OpenDoc(s: Dashboard, id: string): (r: Dashboard)
    ensures r.active == Some(id) && id in r.selected
    ensures id in s.selected ==> r.selected == s.selected
    ensures r.docs == s.docs && r.answers == s.answers
  {
    s.(active := Some(id), selected := if id in s.selected then s.selected else [id])
  }

  /** The whole click handler: `OpenDoc`, then `ensureText` on the clicked record. Only the
      clicked record's id can gain a text; a record that already has one leaves the list alone. */
  function ClickDoc(s: Dashboard, d: Doc, e: Extraction): (r: Dashboard)
    ensures r.active == Some(d.id) && d.id in r.selected
    ensures d.id in s.selected ==> r.selected == s.selected
    ensures r.answers == s.answers && r.usage == s.usage
    ensures |r.docs| == |s.docs|
    ensures forall i :: 0 <= i < |s.docs| && s.docs[i].id != d.id ==> r.docs[i] == s.docs[i]
    ensures HasText(d) ==> r.docs == s.docs
    ensures !HasText(d) && LazyText(d.kind, e).Some? ==>
      forall i :: 0 <= i < |s.docs| && s.docs[i].id == d.id ==> r.docs[i] == s.docs[i].(text := LazyText(d.kind, e))
  {
    EnsureText(OpenDoc(s, d.id), Some(d), e)
  }

  // ---- Reload (`loadLibraryAndSummaries`)

  /** A listed storage object, with its size and time as displayed. */
  datatype StoredFile = StoredFile(name: string, size: string, updated: string)

  /** A saved summary row; `lastSummary` is `None` for null. */
  datatype MetaRow = MetaRow(path: string, lastSummary: Option<string>)

  datatype Listing = ListingFailed(message: string) | Listed(files: seq<StoredFile>)

  datatype MetaReply = MetaFailed(message: string) | MetaRows(rows: seq<MetaRow>)

  /** The saved summary for `path`: `new Map(rows)` keeps the last row of a path,
      and an empty or missing summary shows the placeholder. */
  function SavedSummary(rows: seq<MetaRow>, path: string): (r: string)
    ensures r != ""
    ensures (forall m :: m in rows ==> m.path != path) ==> r == NoSummary
  {
    if rows == [] then NoSummary
    else
      var last := rows[|rows| - 1];
      if last.path == path then
        ShownSummary(last)
      else SavedSummary(rows[..|rows| - 1], path)
  }

  /** `new Map(rows)` keeps the last row of a path: the summary shown is that row's. */
  lemma {:induction false} SavedSummaryLastRowWins(rows: seq<MetaRow>, path: string, k: nat)
    requires k < |rows| && LastRowFor(rows, k, path)
    ensures SavedSummary(rows, path) == ShownSummary(rows[k])
  {
    var n := |rows| - 1;
    if k < n {
      assert rows[n].path != path;
      var front := rows[..n];
      assert LastRowFor(front, k, path) by {
        forall m | k < m < |front| ensures front[m].path != path {
          assert front[m] == rows[m];
        }
      }
      SavedSummaryLastRowWins(front, path, k);
    }
  }

  /** `rows[k]` is the last row for `path`. */
  predicate LastRowFor(rows: seq<MetaRow>, k: nat, path: string)
    requires k < |rows|
  {
    rows[k].path == path && forall m :: k < m < |rows| ==> rows[m].path != path
  }

  /** `m.last_summary || "—"`. */
  function ShownSummary(m: MetaRow): string {
    if m.lastSummary.Some? && m.lastSummary.value != "" then m.lastSummary.value else NoSummary
  }

  function LoadedDoc(userId: string, f: StoredFile, rows: seq<MetaRow>, url: Option<string>): Doc {
    var path := userId + "/" + f.name;
    Doc(path, f.name, GuessType(f.name), path, url, f.size, None, SavedSummary(rows, path), f.updated)
  }

  /** Reload for `userId`: a listing error keeps the list and reports it; a summary
      error is reported but the listing still loads. Every record is keyed by its
      storage path, classified by its stored name and has no text yet; the first
      record becomes active and selected. Each record shows the summary of the last saved
      row for its path, and none when the summary query failed. */
  function LoadLibrary(s: Dashboard, userId: string, listing: Listing, meta: MetaReply, signedUrl: string -> Option<string>): (r: Dashboard)
    ensures listing.ListingFailed? ==> r == s.(err := listing.message)
    ensures listing.Listed? ==>
      && |r.docs| == |listing.files|
      && (forall i :: 0 <= i < |r.docs| ==>
            && r.docs[i].id == r.docs[i].path == userId + "/" + listing.files[i].name
            && r.docs[i].name == listing.files[i].name
            && r.docs[i].kind == GuessType(listing.files[i].name)
            && r.docs[i].text.None?
            && r.docs[i].url == signedUrl(r.docs[i].path)
            && r.docs[i].summary == SavedSummary(if meta.MetaRows? then meta.rows else [], r.docs[i].path))
      && r.err == (if meta.MetaFailed? then meta.message else "")
      && (|r.docs| > 0 ==> r.active == Some(r.docs[0].id) && r.selected == [r.docs[0].id])
      && (|r.docs| == 0 ==> r.active == s.active && r.selected == s.selected)
  {
    match listing
    case ListingFailed(m) => s.(err := m)
    case Listed(files) =>
      var rows := if meta.MetaRows? then meta.rows else [];
      var docs := seq(|files|, i requires 0 <= i < |files| =>
        LoadedDoc(userId, files[i], rows, signedUrl(userId + "/" + files[i].name)));
      assert forall i :: 0 <= i < |docs| ==> docs[i] == LoadedDoc(userId, files[i], rows, signedUrl(userId + "/" + files[i].name));
      var loaded := s.(docs := docs, err := if meta.MetaFailed? then meta.message else "");
      if |docs| > 0 then loaded.(active := Some(docs[0].id), selected := [docs[0].id]) else loaded
  }
}

=== FILE: library_actions.dfy ===
/** The dashboard actions that call the remote functions: summarize one document,
    summarize the selection, and ask a question of the selection (or the active
    document). Replies are inputs; every remote request, saved summary and usage
    row is returned as a `Call`, in the order the action makes them. */
module LibraryActions {
  import opened Wrappers
  import opened Text
  import opened Json
  import opened Quota
  import opened Library

  /** The character budget of one request's document text. */
  const MaxRequestChars: nat := 200000

  /** `text.slice(0, 200000)`: the prefix of the text a request carries. */
  function RequestText(text: string): (r: string)
    ensures |r| == Min(|text|, MaxRequestChars)
    ensures r == text[..|r|]
  {
    TakeAtMost(text, MaxRequestChars)
  }

  /** A reply body: parsed JSON, or the error `res.json()` throws. */
  datatype Parsed = Parsed(json: Json) | Unparsable(message: string)

  /** A remote call's result: `fetch` rejected, or a response arrived. */
  datatype Reply =
    | NetworkError(message: string)
    | Replied(ok: bool, status: int, statusText: string, body: Parsed)

  datatype SummarizeRequest = SummarizeRequest(text: string, name: string)
  datatype AskDoc = AskDoc(name: string, text: string)
  datatype AskRequest = AskRequest(question: string, docs: seq<AskDoc>)

  /** An outside effect of an action. */
  datatype Call =
    | Summarize(sreq: SummarizeRequest)
    | Ask(areq: AskRequest)
    | SaveSummary(path: string, name: string, summary: string)
    | LogUsage(kind: string, rows: nat, tag: string)

  /** The state after an action and the calls it made. */
  datatype Step = Step(after: Dashboard, calls: seq<Call>)

  const NoTextYet := "No text extracted for this file yet."
  const MissingFunctionsUrl := "Missing VITE_FUNCTIONS_URL"
  const NoSelectedText := "No selected docs with extracted text."
  const EmptyQuestion := "Type a question first."
  const NoParsedText := "No parsed text. Extract first."

  function SummaryRequestFor(d: Doc): SummarizeRequest {
    SummarizeRequest(RequestText(d.text.GetOr("")), d.name)
  }

  /** `{ question: q, docs: [{ name, text: (d.text || "").slice(0, 200000) }] }`. */
  function AskRequestFor(q: string, d: Doc): AskRequest {
    AskRequest(q, [AskDoc(d.name, RequestText(d.text.GetOr("")))])
  }

  /** `a || b` on a value read from JSON, written as a string. */
  function OrElse(v: Value, fallback: string): string {
    if Truthy(v) then ToStr(v.value) else fallback
  }

  /** The TypeError a JavaScript engine throws for `data.field` when `data` is `null`. */
  function NullRead(field: string): string {
    "Cannot read properties of null (reading '" + field + "')"
  }

  /** `data.field || fallback` on a parsed reply body: the text, or `None` when the body
      is `null` and the plain `.` read throws. */
  function FieldOr(data: Json, field: string, fallback: string): (r: Option<string>)
    ensures r.None? <==> data.JNull?
    ensures r.Some? && data.JObj? && field in data.fields && data.fields[field].JStr? && data.fields[field].s != "" ==>
      r.value == data.fields[field].s
    ensures r.Some? && !Truthy(Member(Some(data), field)) ==> r.value == fallback
  {
    if data.JNull? then None else Some(OrElse(Member(Some(data), field), fallback))
  }

  /** `data.summary || "No summary."`. */
  function SummaryOf(data: Json): Option<string> {
    FieldOr(data, "summary", "No summary.")
  }

  /** A successful reply whose body parsed to `null`: reading a field of it throws. */
  predicate NullOk(rep: Reply) {
    rep.Replied? && rep.ok && rep.body == Parsed(JNull)
  }

  /** `message || fallback`, for a caught error. */
  function ErrorText(message: string, fallback: string): (r: string)
    ensures fallback != "" ==> r != ""
    ensures message != "" ==> r == message
  {
    if message != "" then message else fallback
  }

  /** The text shown after a rejected summary reply: the handler throws
      `new Error(data?.detail || data?.error || "Summarize failed")` and shows
      `ex.message || "Summarize failed"`. The `Error` constructor turns the value into a
      string, so a truthy value that reads as `""` (such as `[]`) falls back again. */
  function RejectedMessage(data: Json): (r: string)
    ensures r != ""
    ensures Truthy(Member(Some(data), "detail")) && ToStr(Member(Some(data), "detail").value) != "" ==>
      r == ToStr(Member(Some(data), "detail").value)
    ensures (!Truthy(Member(Some(data), "detail")) && Truthy(Member(Some(data), "error")) &&
             ToStr(Member(Some(data), "error").value) != "") ==> r == ToStr(Member(Some(data), "error").value)
    ensures !Truthy(Member(Some(data), "detail")) && !Truthy(Member(Some(data), "error")) ==> r == "Summarize failed"
    ensures Truthy(Member(Some(data), "detail")) && ToStr(Member(Some(data), "detail").value) == "" ==> r == "Summarize failed"
  {
    ErrorText(OrElse(Member(Some(data), "detail"), OrElse(Member(Some(data), "error"), "Summarize failed")), "Summarize failed")
  }

  /** A `detail` of `[]` is truthy but reads as `""`, so the fallback is shown. */
  lemma EmptyArrayDetailFallsBack()
    ensures RejectedMessage(Obj1("detail", JArr([]))) == "Summarize failed"
    ensures RejectedMessage(Obj2("detail", JArr([JNull]), "error", JStr("quota"))) == "Summarize failed"
  {
    assert ToStr(JArr([])) == "";
    assert ToStr(JArr([JNull])) == "";
  }

  /** `saveSummaryRow(doc, summary)`: only with a signed-in user. */
  function SaveCall(s: Dashboard, d: Doc, summary: string): seq<Call> {
    if s.user.Some? then [SaveSummary(d.path, d.name, summary)] else []
  }

  /** `logUsage(kind, tag)` and the `refreshUsage` after it, writing `rows` usage rows
      (one per request; see `Quota.RowsLogged`). Nothing is written without a user;
      the counter is taken to read back exactly the rows just written. */
  function RecordUsage(s: Dashboard, kind: string, rows: nat): (r: Step)
    ensures s.user.None? ==> r == Step(s, [])
    ensures s.user.Some? && kind == "summary" ==> r.after.usage.summaries == s.usage.summaries + rows
    ensures s.user.Some? && kind == "question" ==> r.after.usage.questions == s.usage.questions + rows
  {
    if s.user.None? then Step(s, [])
    else
      var tag := if rows > 1 then "multi" else "single";
      var usage :=
        if kind == "summary" then s.usage.(summaries := s.usage.summaries + RowsLogged(rows))
        else if kind == "question" then s.usage.(questions := s.usage.questions + RowsLogged(rows))
        else s.usage;
      Step(s.(usage := usage), [LogUsage(kind, RowsLogged(rows), tag)])
  }

  /** The summarize requests among `calls`, in order. */
  function SummarizeRequests(calls: seq<Call>): seq<SummarizeRequest> {
    if calls == [] then []
    else (if calls[0].Summarize? then [calls[0].sreq] else []) + SummarizeRequests(calls[1..])
  }

  lemma {:induction false} SummarizeRequestsAppend(a: seq<Call>, b: seq<Call>)
    ensures SummarizeRequests(a + b) == SummarizeRequests(a) + SummarizeRequests(b)
  {
    if a == [] {
      assert a + b == b;
    } else {
      assert (a + b)[1..] == a[1..] + b;
      SummarizeRequestsAppend(a[1..], b);
    }
  }

  /** The ask requests among `calls`, in order. */
  function AskRequests(calls: seq<Call>): seq<AskRequest> {
    if calls == [] then []
    else (if calls[0].Ask? then [calls[0].areq] else []) + AskRequests(calls[1..])
  }

  lemma {:induction false} AskRequestsAppend(a: seq<Call>, b: seq<Call>)
    ensures AskRequests(a + b) == AskRequests(a) + AskRequests(b)
  {
    if a == [] {
      assert a + b == b;
    } else {
      assert (a + b)[1..] == a[1..] + b;
      AskRequestsAppend(a[1..], b);
    }
  }

  // ---- Summarize one document (`summarizeDoc`)

  /** `summarizeDoc(doc)`: refuses without text, without a functions URL and over the
      quota, in that order, without calling out; otherwise sends one request with the
      truncated text and, on a good reply, stores the summary on the records with the
      document's id and logs one summary. */
  function SummarizeDoc(s: Dashboard, doc: Option<Doc>, functionsConfigured: bool, reply: SummarizeRequest -> Reply): (r: Step)
    ensures doc.None? || !HasText(doc.value) ==> r == Step(s.(err := NoTextYet), [])
    ensures doc.Some? && HasText(doc.value) && !functionsConfigured ==> r == Step(s.(err := MissingFunctionsUrl), [])
    ensures doc.Some? && HasText(doc.value) && functionsConfigured && !CheckSummaryLimit(s.usage, 1) ==>
      r == Step(s.(alert := SummaryLimitAlert), [])
    ensures doc.Some? && HasText(doc.value) && functionsConfigured && CheckSummaryLimit(s.usage, 1) ==>
      && |r.calls| >= 1 && r.calls[0] == Summarize(SummaryRequestFor(doc.value))
      && SummarizeRequests(r.calls) == [SummaryRequestFor(doc.value)]
      && |r.after.docs| == |s.docs|
      && (forall i :: 0 <= i < |s.docs| ==> r.after.docs[i] == s.docs[i].(summary := r.after.docs[i].summary))
      && (forall i :: 0 <= i < |s.docs| && s.docs[i].id != doc.value.id ==> r.after.docs[i] == s.docs[i])
    ensures (doc.Some? && HasText(doc.value) && functionsConfigured && CheckSummaryLimit(s.usage, 1) &&
       reply(SummaryRequestFor(doc.value)).NetworkError?) ==>
      r == Step(s.(err := ErrorText(reply(SummaryRequestFor(doc.value)).message, "Summarize failed")),
                [Summarize(SummaryRequestFor(doc.value))])
    ensures (doc.Some? && HasText(doc.value) && functionsConfigured && CheckSummaryLimit(s.usage, 1) &&
       reply(SummaryRequestFor(doc.value)).Replied? && reply(SummaryRequestFor(doc.value)).body.Unparsable?) ==>
      r == Step(s.(err := ErrorText(reply(SummaryRequestFor(doc.value)).body.message, "Summarize failed")),
                [Summarize(SummaryRequestFor(doc.value))])
    ensures (doc.Some? && HasText(doc.value) && functionsConfigured && CheckSummaryLimit(s.usage, 1) &&
       reply(SummaryRequestFor(doc.value)).Replied? && !reply(SummaryRequestFor(doc.value)).ok &&
       reply(SummaryRequestFor(doc.value)).body.Parsed?) ==>
      r == Step(s.(err := RejectedMessage(reply(SummaryRequestFor(doc.value)).body.json)),
                [Summarize(SummaryRequestFor(doc.value))])
    ensures (doc.Some? && HasText(doc.value) && functionsConfigured && CheckSummaryLimit(s.usage, 1) &&
       NullOk(reply(SummaryRequestFor(doc.value)))) ==>
      r == Step(s.(err := NullRead("summary")), [Summarize(SummaryRequestFor(doc.value))])
    ensures (doc.Some? && HasText(doc.value) && functionsConfigured && CheckSummaryLimit(s.usage, 1) &&
       reply(SummaryRequestFor(doc.value)).Replied? && reply(SummaryRequestFor(doc.value)).ok &&
       reply(SummaryRequestFor(doc.value)).body.Parsed? && !NullOk(reply(SummaryRequestFor(doc.value)))) ==>
      var summary := SummaryOf(reply(SummaryRequestFor(doc.value)).body.json).value;
      && (forall i :: 0 <= i < |s.docs| && s.docs[i].id == doc.value.id ==> r.after.docs[i].summary == summary)
      && (s.user.None? ==> r.after.usage == s.usage && r.calls == [Summarize(SummaryRequestFor(doc.value))])
      && (s.user.Some? ==>
            && r.after.usage.summaries == s.usage.summaries + 1
            && r.calls == [Summarize(SummaryRequestFor(doc.value)), SaveSummary(doc.value.path, doc.value.name, summary),
                           LogUsage("summary", 1, "single")])
  {
    if doc.None? || !HasText(doc.value) then Step(s.(err := NoTextYet), [])
    else if !functionsConfigured then Step(s.(err := MissingFunctionsUrl), [])
    else if !CheckSummaryLimit(s.usage, 1) then Step(s.(alert := SummaryLimitAlert), [])
    else
      var d := doc.value;
      var req := SummaryRequestFor(d);
      assert SummarizeRequests([Summarize(req)]) == [req];
      match reply(req)
      case NetworkError(m) => Step(s.(err := ErrorText(m, "Summarize failed")), [Summarize(req)])
      case Replied(ok, _, _, body) =>
        match body
        case Unparsable(m) => Step(s.(err := ErrorText(m, "Summarize failed")), [Summarize(req)])
        case Parsed(data) =>
          if !ok then
            Step(s.(err := RejectedMessage(data)), [Summarize(req)])
          else if data.JNull? then Step(s.(err := NullRead("summary")), [Summarize(req)])
          else
            StoreSummary(s, d, req, SummaryOf(data).value)
  }

  /** A good single reply: the records with the document's id show the summary whether
      or not anyone is signed in; with a user, the summary row is saved and one summary
      is logged, in that order. */
  function StoreSummary(s: Dashboard, d: Doc, req: SummarizeRequest, summary: string): (r: Step)
    ensures |r.after.docs| == |s.docs|
    ensures forall i :: 0 <= i < |s.docs| && s.docs[i].id != d.id ==> r.after.docs[i] == s.docs[i]
    ensures forall i :: 0 <= i < |s.docs| && s.docs[i].id == d.id ==> r.after.docs[i] == s.docs[i].(summary := summary)
    ensures r.after == s.(docs := r.after.docs, usage := r.after.usage)
    ensures SummarizeRequests(r.calls) == [req]
    ensures s.user.None? ==> r.after.usage == s.usage && r.calls == [Summarize(req)]
    ensures s.user.Some? ==>
      && r.after.usage == s.usage.(summaries := s.usage.summaries + 1)
      && r.calls == [Summarize(req), SaveSummary(d.path, d.name, summary), LogUsage("summary", 1, "single")]
  {
    var updated := s.(docs := UpdateWhere(s.docs, d.id, (x: Doc) => x.(summary := summary)));
    var logged := RecordUsage(updated, "summary", 1);
    var calls := [Summarize(req)] + SaveCall(s, d, summary) + logged.calls;
    SummarizeRequestsAppend([Summarize(req)] + SaveCall(s, d, summary), logged.calls);
    SummarizeRequestsAppend([Summarize(req)], SaveCall(s, d, summary));
    assert SummarizeRequests([Summarize(req)]) == [req];
    Step(logged.after, calls)
  }

  // ---- Summarize the selection (`summarizeSelected`)

  /** The selected records with text, in list order. */
  function ChosenForSummary(docs: seq<Doc>, selected: seq<string>): (r: seq<Doc>)
    ensures forall d :: d in r <==> d in docs && d.id in selected && HasText(d)
    ensures forall d :: multiset(r)[d] == if d.id in selected && HasText(d) then multiset(docs)[d] else 0
  {
    KeepCounts(docs, (d: Doc) => d.id in selected && HasText(d));
    Keep(docs, (d: Doc) => d.id in selected && HasText(d))
  }

  /** The batch keeps list order: the chosen records of a concatenation are those of
      each part, in turn. */
  lemma ChosenKeepsOrder(a: seq<Doc>, b: seq<Doc>, selected: seq<string>)
    ensures ChosenForSummary(a + b, selected) == ChosenForSummary(a, selected) + ChosenForSummary(b, selected)
  {
    KeepAppend(a, b, (d: Doc) => d.id in selected && HasText(d));
  }

  /** The requests for `chosen[i..]`, one per record, in order. */
  function SummaryRequestsFor(chosen: seq<Doc>, i: nat): (r: seq<SummarizeRequest>)
    decreases |chosen| - i
    ensures |r| == if i <= |chosen| then |chosen| - i else 0
    ensures forall k :: i <= k < |chosen| ==> r[k - i] == SummaryRequestFor(chosen[k])
  {
    if i >= |chosen| then [] else [SummaryRequestFor(chosen[i])] + SummaryRequestsFor(chosen, i + 1)
  }

  /** A batch in progress: the records, the calls made, and the error that stopped it. */
  datatype Run = Run(docs: seq<Doc>, calls: seq<Call>, failure: Option<string>)

  /** The summary a batch stores for a readable reply: the service's on success,
      a placeholder on failure; `None` when a successful body is `null` and the read throws. */
  function BatchSummary(ok: bool, data: Json): (r: Option<string>)
    ensures r.None? <==> ok && data.JNull?
    ensures !ok ==> r == Some("Summary unavailable.")
    ensures ok ==> r == SummaryOf(data)
  {
    if ok then SummaryOf(data) else Some("Summary unavailable.")
  }

  /** The summary a batch stores for a reply, when it stores one. */
  function ReplySummary(rep: Reply): Option<string> {
    if rep.Replied? && rep.body.Parsed? then BatchSummary(rep.ok, rep.body.json) else None
  }

  /** `docs[i..]` holds no record with this id. */
  predicate NoneWithId(docs: seq<Doc>, i: nat, id: string) {
    forall k :: i <= k < |docs| ==> docs[k].id != id
  }

  /** The loop over `chosen[i..]`: one request per record; a failed request stores
      "Summary unavailable."; a rejected `fetch`, an unreadable body or a successful
      `null` body stops the batch. */
  function SummarizeFrom(s: Dashboard, chosen: seq<Doc>, reply: SummarizeRequest -> Reply, i: nat): (r: Run)
    decreases |chosen| - i
    ensures r.failure.None? ==> SummarizeRequests(r.calls) == SummaryRequestsFor(chosen, i)
    ensures r.failure.Some? ==> i < |chosen| && IsBatchPrefix(SummarizeRequests(r.calls), SummaryRequestsFor(chosen, i))
    ensures i < |chosen| && NullOk(reply(SummaryRequestFor(chosen[i]))) ==>
      r == Run(s.docs, [Summarize(SummaryRequestFor(chosen[i]))], Some(NullRead("summary")))
  {
    if i >= |chosen| then Run(s.docs, [], None)
    else
      var d := chosen[i];
      var req := SummaryRequestFor(d);
      assert SummarizeRequests([Summarize(req)]) == [req];
      BatchPrefix(SummaryRequestsFor(chosen, i), req, [], SummaryRequestsFor(chosen, i + 1));
      match reply(req)
      case NetworkError(m) => Run(s.docs, [Summarize(req)], Some(m))
      case Replied(ok, _, _, body) =>
        if body.Unparsable? then Run(s.docs, [Summarize(req)], Some(body.message))
        else if BatchSummary(ok, body.json).None? then Run(s.docs, [Summarize(req)], Some(NullRead("summary")))
        else
          var summary := BatchSummary(ok, body.json).value;
          var next := s.(docs := UpdateWhere(s.docs, d.id, (x: Doc) => x.(summary := summary)));
          var rest := SummarizeFrom(next, chosen, reply, i + 1);
          var head := [Summarize(req)] + SaveCall(s, d, summary);
          SummarizeRequestsAppend(head, rest.calls);
          SummarizeRequestsAppend([Summarize(req)], SaveCall(s, d, summary));
          BatchPrefix(SummaryRequestsFor(chosen, i), req, SummarizeRequests(rest.calls), SummaryRequestsFor(chosen, i + 1));
          Run(rest.docs, head + rest.calls, rest.failure)
  }

  /** The batch changes records only in their summary, and only those in `chosen[i..]`. */
  lemma {:induction false} SummarizeFromTouchesOnlyChosen(s: Dashboard, chosen: seq<Doc>, reply: SummarizeRequest -> Reply, i: nat)
    decreases |chosen| - i
    ensures var r := SummarizeFrom(s, chosen, reply, i);
      && |r.docs| == |s.docs|
      && (forall j :: 0 <= j < |s.docs| ==> r.docs[j] == s.docs[j].(summary := r.docs[j].summary))
      && (forall j :: 0 <= j < |s.docs| && NoneWithId(chosen, i, s.docs[j].id) ==> r.docs[j] == s.docs[j])
  {
    if i < |chosen| {
      var d := chosen[i];
      var req := SummaryRequestFor(d);
      var rep := reply(req);
      if rep.Replied? && rep.body.Parsed? && BatchSummary(rep.ok, rep.body.json).Some? {
        var summary := BatchSummary(rep.ok, rep.body.json).value;
        var next := s.(docs := UpdateWhere(s.docs, d.id, (x: Doc) => x.(summary := summary)));
        SummarizeFromTouchesOnlyChosen(next, chosen, reply, i + 1);
        assert SummarizeFrom(s, chosen, reply, i).docs == SummarizeFrom(next, chosen, reply, i + 1).docs;
        forall j | 0 <= j < |s.docs| && NoneWithId(chosen, i, s.docs[j].id)
          ensures SummarizeFrom(s, chosen, reply, i).docs[j] == s.docs[j]
        {
          assert s.docs[j].id != d.id;
          assert NoneWithId(chosen, i + 1, next.docs[j].id);
        }
      }
    }
  }

  /** A completed batch got a stored summary from every reply, and each record shows the
      summary of the reply to the last chosen record with its id. */
  lemma {:induction false} SummarizeFromStores(s: Dashboard, chosen: seq<Doc>, reply: SummarizeRequest -> Reply, i: nat)
    requires SummarizeFrom(s, chosen, reply, i).failure.None?
    decreases |chosen| - i
    ensures forall k :: i <= k < |chosen| ==> ReplySummary(reply(SummaryRequestFor(chosen[k]))).Some?
    ensures |SummarizeFrom(s, chosen, reply, i).docs| == |s.docs|
    ensures forall k, j :: (i <= k < |chosen| && NoneWithId(chosen, k + 1, chosen[k].id) &&
                            0 <= j < |s.docs| && s.docs[j].id == chosen[k].id) ==>
      ReplySummary(reply(SummaryRequestFor(chosen[k]))).Some? &&
      SummarizeFrom(s, chosen, reply, i).docs[j].summary == ReplySummary(reply(SummaryRequestFor(chosen[k]))).value
  {
    if i < |chosen| {
      var d := chosen[i];
      var rep := reply(SummaryRequestFor(d));
      assert rep.Replied? && rep.body.Parsed? && BatchSummary(rep.ok, rep.body.json).Some?;
      var summary := BatchSummary(rep.ok, rep.body.json).value;
      var next := s.(docs := UpdateWhere(s.docs, d.id, (x: Doc) => x.(summary := summary)));
      var rest := SummarizeFrom(next, chosen, reply, i + 1);
      assert SummarizeFrom(s, chosen, reply, i).docs == rest.docs;
      SummarizeFromStores(next, chosen, reply, i + 1);
      SummarizeFromTouchesOnlyChosen(next, chosen, reply, i + 1);
      forall k, j | i <= k < |chosen| && NoneWithId(chosen, k + 1, chosen[k].id) && 0 <= j < |s.docs| && s.docs[j].id == chosen[k].id
        ensures rest.docs[j].summary == ReplySummary(reply(SummaryRequestFor(chosen[k]))).value
      {
        assert next.docs[j].id == s.docs[j].id;
        if k == i {
          assert next.docs[j] == s.docs[j].(summary := summary);
        }
      }
    }
  }

  /** With a user, a completed batch saves every chosen record's summary under its path
      and name; without one it makes no call but the requests. */
  lemma {:induction false} SummarizeFromSaves(s: Dashboard, chosen: seq<Doc>, reply: SummarizeRequest -> Reply, i: nat)
    requires SummarizeFrom(s, chosen, reply, i).failure.None?
    decreases |chosen| - i
    ensures s.user.Some? ==> forall k :: i <= k < |chosen| ==>
      ReplySummary(reply(SummaryRequestFor(chosen[k]))).Some? &&
      SaveSummary(chosen[k].path, chosen[k].name, ReplySummary(reply(SummaryRequestFor(chosen[k]))).value)
        in SummarizeFrom(s, chosen, reply, i).calls
    ensures s.user.None? ==> forall c :: c in SummarizeFrom(s, chosen, reply, i).calls ==> c.Summarize?
  {
    if i < |chosen| {
      var d := chosen[i];
      var req := SummaryRequestFor(d);
      var rep := reply(req);
      assert rep.Replied? && rep.body.Parsed? && BatchSummary(rep.ok, rep.body.json).Some?;
      var summary := BatchSummary(rep.ok, rep.body.json).value;
      var next := s.(docs := UpdateWhere(s.docs, d.id, (x: Doc) => x.(summary := summary)));
      var rest := SummarizeFrom(next, chosen, reply, i + 1);
      var head := [Summarize(req)] + SaveCall(s, d, summary);
      assert SummarizeFrom(s, chosen, reply, i).calls == head + rest.calls;
      SummarizeFromSaves(next, chosen, reply, i + 1);
      if s.user.Some? {
        assert SaveSummary(d.path, d.name, summary) in head;
      } else {
        assert head == [Summarize(req)];
      }
    }
  }

  /** `after` is `before` with every record showing the summary of the reply to the last
      record in `chosen` with its id. */
  predicate StoresReplies(before: seq<Doc>, chosen: seq<Doc>, reply: SummarizeRequest -> Reply, after: seq<Doc>) {
    && |after| == |before|
    && forall k, j :: (0 <= k < |chosen| && NoneWithId(chosen, k + 1, chosen[k].id) &&
                       0 <= j < |before| && before[j].id == chosen[k].id) ==>
         ReplySummary(reply(SummaryRequestFor(chosen[k]))).Some? &&
         after[j].summary == ReplySummary(reply(SummaryRequestFor(chosen[k]))).value
  }

  /** The requests a batch made: a non-empty prefix of those it meant to make. */
  predicate IsBatchPrefix<T(==)>(done: seq<T>, all: seq<T>) {
    0 < |done| <= |all| && done == all[..|done|]
  }

  /** Book-keeping for the batch loops: the first request followed by the rest, or by
      a batch prefix of the rest, is a batch prefix of the whole. */
  lemma BatchPrefix<T>(all: seq<T>, first: T, done: seq<T>, rest: seq<T>)
    requires all == [first] + rest
    ensures done == rest ==> [first] + done == all
    ensures IsBatchPrefix(done, rest) ==> IsBatchPrefix([first] + done, all)
    ensures IsBatchPrefix([first], all)
  {
    if IsBatchPrefix(done, rest) {
      assert [first] + done == all[..|done| + 1];
    }
  }

  /** An unselected record is never among those chosen for a batch. */
  lemma UnselectedNotChosen(s: Dashboard)
    ensures forall j :: 0 <= j < |s.docs| && s.docs[j].id !in s.selected ==>
      NoneWithId(ChosenForSummary(s.docs, s.selected), 0, s.docs[j].id)
  {
    var chosen := ChosenForSummary(s.docs, s.selected);
    forall j, k | 0 <= j < |s.docs| && s.docs[j].id !in s.selected && 0 <= k < |chosen|
      ensures chosen[k].id != s.docs[j].id
    {
      assert chosen[k] in chosen;
    }
  }

  /** The request round of `summarizeSelected`, once the batch has passed the checks:
      records change only their summary, and only those chosen; a completed round
      logs one summary per record. */
  function SummarizeRound(s: Dashboard, chosen: seq<Doc>, reply: SummarizeRequest -> Reply): (r: Step)
    requires chosen != []
    ensures |r.after.docs| == |s.docs|
    ensures forall j :: 0 <= j < |s.docs| ==> r.after.docs[j] == s.docs[j].(summary := r.after.docs[j].summary)
    ensures forall j :: 0 <= j < |s.docs| && NoneWithId(chosen, 0, s.docs[j].id) ==> r.after.docs[j] == s.docs[j]
    ensures IsBatchPrefix(SummarizeRequests(r.calls), SummaryRequestsFor(chosen, 0))
    ensures SummarizeFrom(s, chosen, reply, 0).failure.Some? ==>
      r.after.usage == s.usage && r.after.err != ""
    ensures SummarizeFrom(s, chosen, reply, 0).failure.None? ==>
      && SummarizeRequests(r.calls) == SummaryRequestsFor(chosen, 0)
      && (s.user.Some? ==> r.after.usage.summaries == s.usage.summaries + |chosen|)
    ensures SummarizeFrom(s, chosen, reply, 0).failure.None? ==> StoresReplies(s.docs, chosen, reply, r.after.docs)
    ensures SummarizeFrom(s, chosen, reply, 0).failure.None? && s.user.Some? ==>
      forall k :: 0 <= k < |chosen| ==>
        ReplySummary(reply(SummaryRequestFor(chosen[k]))).Some? &&
        SaveSummary(chosen[k].path, chosen[k].name, ReplySummary(reply(SummaryRequestFor(chosen[k]))).value) in r.calls
  {
    var run := SummarizeFrom(s, chosen, reply, 0);
    SummarizeFromTouchesOnlyChosen(s, chosen, reply, 0);
    var after := s.(docs := run.docs);
    if run.failure.Some? then
      Step(after.(err := ErrorText(run.failure.value, "Summarize selected failed")), run.calls)
    else
      SummarizeFromStores(s, chosen, reply, 0);
      SummarizeFromSaves(s, chosen, reply, 0);
      var logged := RecordUsage(after, "summary", |chosen|);
      SummarizeRequestsAppend(run.calls, logged.calls);
      assert SummarizeRequests(logged.calls) == [] by {
        assert logged.calls == [] || logged.calls == [LogUsage("summary", |chosen|, if |chosen| > 1 then "multi" else "single")];
      }
      assert SummaryRequestsFor(chosen, 0)[..|chosen|] == SummaryRequestsFor(chosen, 0);
      Step(logged.after, run.calls + logged.calls)
  }

  /** `summarizeSelected()`: the selected records with text, checked against the quota
      as one batch; then the round of requests. Unselected records are untouched, and a
      completed round stays within the daily limit. */
  function SummarizeSelected(s: Dashboard, reply: SummarizeRequest -> Reply): (r: Step)
    ensures var chosen := ChosenForSummary(s.docs, s.selected);
      && (chosen == [] ==> r == Step(s.(err := NoSelectedText), []))
      && (chosen != [] && !CheckSummaryLimit(s.usage, |chosen|) ==> r == Step(s.(alert := SummaryLimitAlert), []))
      && (chosen != [] && CheckSummaryLimit(s.usage, |chosen|) ==> r == SummarizeRound(s, chosen, reply))
    ensures forall j :: 0 <= j < |s.docs| && s.docs[j].id !in s.selected ==> |r.after.docs| == |s.docs| && r.after.docs[j] == s.docs[j]
    ensures var chosen := ChosenForSummary(s.docs, s.selected);
      (chosen != [] && CheckSummaryLimit(s.usage, |chosen|) &&
       SummarizeFrom(s, chosen, reply, 0).failure.None? && s.user.Some?) ==>
        r.after.usage.summaries <= SummaryDailyLimit
    ensures var chosen := ChosenForSummary(s.docs, s.selected);
      (chosen != [] && CheckSummaryLimit(s.usage, |chosen|) && SummarizeFrom(s, chosen, reply, 0).failure.None?) ==>
        StoresReplies(s.docs, chosen, reply, r.after.docs)
  {
    var chosen := ChosenForSummary(s.docs, s.selected);
    UnselectedNotChosen(s);
    if chosen == [] then Step(s.(err := NoSelectedText), [])
    else if !CheckSummaryLimit(s.usage, |chosen|) then Step(s.(alert := SummaryLimitAlert), [])
    else SummarizeRound(s, chosen, reply)
  }

  // ---- Ask (`onAsk`)

  /** Two filters in a row keep what both keep. */
  lemma {:induction false} KeepBoth(docs: seq<Doc>, first: Doc -> bool, second: Doc -> bool, both: Doc -> bool)
    requires forall d :: both(d) == (first(d) && second(d))
    ensures Keep(Keep(docs, first), second) == Keep(docs, both)
  {
    if docs != [] {
      KeepBoth(docs[1..], first, second, both);
      var head := if first(docs[0]) then [docs[0]] else [];
      KeepAppend(head, Keep(docs[1..], first), second);
      if first(docs[0]) {
        assert head[1..] == [];
      }
    }
  }

  /** The records a question goes to: the selected ones, or else the active one,
      keeping those with text. */
  function AskTargets(docs: seq<Doc>, selected: seq<string>, active: Option<string>): (r: seq<Doc>)
    ensures |selected| > 0 ==> r == ChosenForSummary(docs, selected)
    ensures |selected| == 0 ==>
      r == (if FindDoc(docs, active).Some? && HasText(FindDoc(docs, active).value) then [FindDoc(docs, active).value] else [])
  {
    var chosen :=
      if |selected| > 0 then Keep(docs, (d: Doc) => d.id in selected)
      else if FindDoc(docs, active).Some? then [FindDoc(docs, active).value]
      else [];
    var r := Keep(chosen, HasText);
    assert |selected| > 0 ==> r == ChosenForSummary(docs, selected) by {
      KeepBoth(docs, (d: Doc) => d.id in selected, HasText, (d: Doc) => d.id in selected && HasText(d));
    }
    assert |selected| == 0 && FindDoc(docs, active).Some? ==>
      r == (if HasText(chosen[0]) then [chosen[0]] else []) + Keep([], HasText) by {
      if |selected| == 0 && FindDoc(docs, active).Some? {
        assert chosen[1..] == [];
      }
    }
    r
  }

  /** The answer text a reply yields, where an unreadable body reads as `{}`:
      `data.answer || "No answer."` on success, otherwise "Ask failed: " with the first of
      the error, the message, the status text and the status. `None` when a successful
      body is `null` and `data.answer` throws. */
  function AnswerOf(ok: bool, status: int, statusText: string, body: Parsed): (r: Option<string>)
    ensures r.None? <==> ok && body == Parsed(JNull)
    ensures !ok ==> r.Some? && StartsWith(r.value, "Ask failed: ")
    ensures ok && body.Unparsable? ==> r == Some("No answer.")
  {
    var data := if body.Parsed? then body.json else JObj(map[]);
    if ok then FieldOr(data, "answer", "No answer.")
    else
      var status := if statusText != "" then statusText else IntToString(status);
      Some("Ask failed: " + OrElse(Member(Some(data), "error"), OrElse(Member(Some(data), "message"), status)))
  }

  /** A document's answer history, newest first. */
  function History(answers: map<string, seq<QA>>, id: string): seq<QA> {
    if id in answers then answers[id] else []
  }

  /** The requests for `targets[i..]`, one per record, in order. */
  function AskRequestsFor(q: string, targets: seq<Doc>, i: nat): (r: seq<AskRequest>)
    decreases |targets| - i
    ensures |r| == if i <= |targets| then |targets| - i else 0
    ensures forall k :: i <= k < |targets| ==> r[k - i] == AskRequestFor(q, targets[k])
  {
    if i >= |targets| then [] else [AskRequestFor(q, targets[i])] + AskRequestsFor(q, targets, i + 1)
  }

  predicate DistinctIds(docs: seq<Doc>) {
    forall a, b :: 0 <= a < b < |docs| ==> docs[a].id != docs[b].id
  }

  datatype AskRun = AskRun(answers: map<string, seq<QA>>, calls: seq<Call>, failure: Option<string>)

  /** The entry a reply puts in front of a history. */
  function EntryFor(q: string, reply: AskRequest -> Reply, now: nat -> int, d: Doc, i: nat): QA
    requires reply(AskRequestFor(q, d)).Replied? && !NullOk(reply(AskRequestFor(q, d)))
  {
    var rep := reply(AskRequestFor(q, d));
    QA(q, AnswerOf(rep.ok, rep.status, rep.statusText, rep.body).value, now(i))
  }

  /** The loop over `targets[i..]`: one request per record, whose answer is put at
      the front of that record's history, stamped with `now(i)`; a rejected `fetch` or
      a successful `null` body stops the loop. Records not targeted keep their history. */
  function AskFrom(answers: map<string, seq<QA>>, q: string, targets: seq<Doc>, reply: AskRequest -> Reply, now: nat -> int, i: nat): (r: AskRun)
    decreases |targets| - i
    ensures forall id :: NoneWithId(targets, i, id) ==> History(r.answers, id) == History(answers, id)
    ensures r.failure.None? ==> AskRequests(r.calls) == AskRequestsFor(q, targets, i)
    ensures r.failure.Some? ==> i < |targets| && IsBatchPrefix(AskRequests(r.calls), AskRequestsFor(q, targets, i))
    ensures i < |targets| && NullOk(reply(AskRequestFor(q, targets[i]))) ==>
      r == AskRun(answers, [Ask(AskRequestFor(q, targets[i]))], Some(NullRead("answer")))
  {
    if i >= |targets| then AskRun(answers, [], None)
    else
      var d := targets[i];
      var req := AskRequestFor(q, d);
      assert AskRequests([Ask(req)]) == [req];
      BatchPrefix(AskRequestsFor(q, targets, i), req, [], AskRequestsFor(q, targets, i + 1));
      match reply(req)
      case NetworkError(m) => AskRun(answers, [Ask(req)], Some(m))
      case Replied(ok, _, _, body) =>
        if ok && body == Parsed(JNull) then AskRun(answers, [Ask(req)], Some(NullRead("answer")))
        else
          var next := answers[d.id := [EntryFor(q, reply, now, d, i)] + History(answers, d.id)];
          var rest := AskFrom(next, q, targets, reply, now, i + 1);
          AskRequestsAppend([Ask(req)], rest.calls);
          BatchPrefix(AskRequestsFor(q, targets, i), req, AskRequests(rest.calls), AskRequestsFor(q, targets, i + 1));
          AskRun(rest.answers, [Ask(req)] + rest.calls, rest.failure)
  }

  /** With distinct ids, a completed loop gives every target exactly one new entry,
      in front of its old history, answering `q` with that target's reply. */
  lemma {:induction false} AskFromHistories(answers: map<string, seq<QA>>, q: string, targets: seq<Doc>, reply: AskRequest -> Reply, now: nat -> int, i: nat)
    requires DistinctIds(targets)
    requires AskFrom(answers, q, targets, reply, now, i).failure.None?
    decreases |targets| - i
    ensures forall k :: i <= k < |targets| ==>
      && reply(AskRequestFor(q, targets[k])).Replied? && !NullOk(reply(AskRequestFor(q, targets[k])))
      && History(AskFrom(answers, q, targets, reply, now, i).answers, targets[k].id) ==
           [EntryFor(q, reply, now, targets[k], k)] + History(answers, targets[k].id)
  {
    if i < |targets| {
      var d := targets[i];
      assert reply(AskRequestFor(q, d)).Replied? && !NullOk(reply(AskRequestFor(q, d)));
      var next := answers[d.id := [EntryFor(q, reply, now, d, i)] + History(answers, d.id)];
      AskFromHistories(next, q, targets, reply, now, i + 1);
      assert NoneWithId(targets, i + 1, d.id);
      forall k | i < k < |targets|
        ensures History(next, targets[k].id) == History(answers, targets[k].id)
      {
        assert targets[k].id != d.id;
      }
    }
  }

  /** A history that gained one entry for question `q`, at the front. */
  predicate OneNewEntry(before: seq<QA>, after: seq<QA>, q: string) {
    |after| == |before| + 1 && after[0].q == q && after[1..] == before
  }

  /** The request round of `onAsk`, once the question and targets are settled: a
      completed round clears the question box and logs one question per target. */
  function AskRound(s: Dashboard, q: string, targets: seq<Doc>, reply: AskRequest -> Reply, now: nat -> int): (r: Step)
    requires targets != []
    ensures r.after.docs == s.docs
    ensures IsBatchPrefix(AskRequests(r.calls), AskRequestsFor(q, targets, 0))
    ensures forall id :: NoneWithId(targets, 0, id) ==> History(r.after.answers, id) == History(s.answers, id)
    ensures r.after.answers == AskFrom(s.answers, q, targets, reply, now, 0).answers
    ensures AskFrom(s.answers, q, targets, reply, now, 0).failure.Some? ==>
      r.after.draft == s.draft && r.after.usage == s.usage && r.after.err != ""
    ensures AskFrom(s.answers, q, targets, reply, now, 0).failure.None? ==>
      && r.after.draft == ""
      && AskRequests(r.calls) == AskRequestsFor(q, targets, 0)
      && (s.user.Some? ==> r.after.usage.questions == s.usage.questions + |targets|)
  {
    var run := AskFrom(s.answers, q, targets, reply, now, 0);
    var after := s.(answers := run.answers);
    if run.failure.Some? then
      Step(after.(err := ErrorText(run.failure.value, "Ask failed")), run.calls)
    else
      var logged := RecordUsage(after.(draft := ""), "question", |targets|);
      AskRequestsAppend(run.calls, logged.calls);
      assert AskRequests(logged.calls) == [] by {
        assert logged.calls == [] || logged.calls == [LogUsage("question", |targets|, if |targets| > 1 then "multi" else "single")];
      }
      assert AskRequestsFor(q, targets, 0)[..|targets|] == AskRequestsFor(q, targets, 0);
      Step(logged.after, run.calls + logged.calls)
  }

  /** With distinct target ids, a completed round leaves each target's history with
      exactly one new entry, for this question, in front. */
  lemma AskRoundAddsOneEntryEach(s: Dashboard, q: string, targets: seq<Doc>, reply: AskRequest -> Reply, now: nat -> int)
    requires targets != [] && DistinctIds(targets)
    requires AskFrom(s.answers, q, targets, reply, now, 0).failure.None?
    ensures forall k :: 0 <= k < |targets| ==>
      OneNewEntry(History(s.answers, targets[k].id), History(AskRound(s, q, targets, reply, now).after.answers, targets[k].id), q)
  {
    AskFromHistories(s.answers, q, targets, reply, now, 0);
    forall k | 0 <= k < |targets|
      ensures OneNewEntry(History(s.answers, targets[k].id), History(AskRound(s, q, targets, reply, now).after.answers, targets[k].id), q)
    {
      var e := EntryFor(q, reply, now, targets[k], k);
      assert ([e] + History(s.answers, targets[k].id))[1..] == History(s.answers, targets[k].id);
    }
  }

  /** `onAsk`: the trimmed question must be non-empty and the functions URL set; the
      targets must be non-empty and fit the question quota together; then the round of
      requests, which stays within the daily limit when it completes. */
  function OnAsk(s: Dashboard, functionsConfigured: bool, reply: AskRequest -> Reply, now: nat -> int): (r: Step)
    ensures Trim(s.draft) == "" ==> r == Step(s.(err := EmptyQuestion), [])
    ensures Trim(s.draft) != "" && !functionsConfigured ==> r == Step(s.(err := MissingFunctionsUrl), [])
    ensures var targets := AskTargets(s.docs, s.selected, s.active);
      Trim(s.draft) != "" && functionsConfigured ==>
      && (targets == [] ==> r == Step(s.(err := NoParsedText), []))
      && (targets != [] && !CheckQuestionLimit(s.usage, |targets|) ==> r == Step(s.(alert := QuestionLimitAlert), []))
      && (targets != [] && CheckQuestionLimit(s.usage, |targets|) ==> r == AskRound(s, Trim(s.draft), targets, reply, now))
    ensures var targets := AskTargets(s.docs, s.selected, s.active);
      var q := Trim(s.draft);
      (q != "" && functionsConfigured && targets != [] && CheckQuestionLimit(s.usage, |targets|) &&
       AskFrom(s.answers, q, targets, reply, now, 0).failure.None? && s.user.Some?) ==>
        r.after.usage.questions <= QuestionDailyLimit
  {
    var q := Trim(s.draft);
    if q == "" then Step(s.(err := EmptyQuestion), [])
    else if !functionsConfigured then Step(s.(err := MissingFunctionsUrl), [])
    else
      var targets := AskTargets(s.docs, s.selected, s.active);
      if targets == [] then Step(s.(err := NoParsedText), [])
      else if !CheckQuestionLimit(s.usage, |targets|) then Step(s.(alert := QuestionLimitAlert), [])
      else AskRound(s, q, targets, reply, now)
  }

  // ---- Usage counters (`refreshUsage`)

  /** A count query's result: an error, or a count that may be null. */
  datatype CountRead = ReadFailed | ReadCount(count: Option<nat>)

  /** `refreshUsage`: either query failing leaves the counters as they were; a null
      count reads as 0. */
  function RefreshUsage(s: Dashboard, summaries: CountRead, questions: CountRead): (r: Dashboard)
    ensures summaries.ReadFailed? || questions.ReadFailed? ==> r == s
    ensures summaries.ReadCount? && questions.ReadCount? ==>
      r == s.(usage := Usage(summaries.count.GetOr(0), questions.count.GetOr(0)))
  {
    if summaries.ReadFailed? || questions.ReadFailed? then s
    else s.(usage := Usage(summaries.count.GetOr(0), questions.count.GetOr(0)))
  }

  /** A refresh touches only the counters, and the last refresh that reads both counts
      decides them: a later failing refresh keeps them, a later good one replaces them
      whatever came before. */
  lemma RefreshUsageLastGoodReadWins(s: Dashboard, a: CountRead, b: CountRead, c: CountRead, d: CountRead)
    ensures RefreshUsage(s, a, b) == s.(usage := RefreshUsage(s, a, b).usage)
    ensures c.ReadFailed? || d.ReadFailed? ==> RefreshUsage(RefreshUsage(s, a, b), c, d) == RefreshUsage(s, a, b)
    ensures c.ReadCount? && d.ReadCount? ==> RefreshUsage(RefreshUsage(s, a, b), c, d) == RefreshUsage(s, c, d)
  {
  }
}

=== FILE: otp_verify.dfy ===
/** The one-time-code page: which kind of code to verify or resend for the page's mode,
    the code box's digit filter, and the submit and resend actions. The identity
    provider's replies are inputs. */
module OtpVerify {
  import opened Wrappers
  import opened Text

  /** `typeForMode`: the verification type for a mode, compared without case. */
  function TypeForMode(mode: string): (r: string)
    ensures ToLower(mode) == "signup" <==> r == "signup"
    ensures ToLower(mode) == "recovery" <==> r == "recovery"
    ensures ToLower(mode) != "signup" && ToLower(mode) != "recovery" <==> r == "email"
  {
    match ToLower(mode)
    case "signup" => "signup"
    case "login" => "email"
    case "recovery" => "recovery"
    case _ => "email"
  }

  /** `params.get("mode") || "login"`. */
  function ModeParam(param: Option<string>): (r: string)
    ensures r != ""
    ensures param.Some? && param.value != "" ==> r == param.value
  {
    if param.Some? && param.value != "" then param.value else "login"
  }

  /** A page opened without a mode verifies a login code. */
  lemma MissingModeMeansLogin(param: Option<string>)
    requires param.None? || param.value == ""
    ensures TypeForMode(ModeParam(param)) == "email"
  {
    assert ToLower("login") == "login";
  }

  /** Modes are read without case. */
  lemma TypeForModeIgnoresCase(mode: string)
    ensures TypeForMode(ToLower(mode)) == TypeForMode(mode)
  {
    ToLowerIdempotent(mode);
  }

  // ---- the code box

  /** `value.replace(/\D+/g, "")`: what the code box keeps of what is typed or pasted. */
  function CodeInput(raw: string): (r: string)
    ensures AllDigits(r)
    ensures |r| <= |raw|
  {
    Filter(raw, IsDigit)
  }

  /** Every digit typed is kept, as many times as it was typed, and nothing else. */
  lemma CodeInputKeepsDigits(raw: string, c: char)
    ensures multiset(CodeInput(raw))[c] == if IsDigit(c) then multiset(raw)[c] else 0
  {
    FilterMultiset(raw, IsDigit, c);
  }

  /** Filtering what is already in the box changes nothing. */
  lemma CodeInputIdempotent(raw: string)
    ensures CodeInput(CodeInput(raw)) == CodeInput(raw)
  {
    FilterKeepsAll(CodeInput(raw), IsDigit);
  }

  /** Text pasted after the box's contents is filtered on its own. */
  lemma CodeInputAppend(a: string, b: string)
    ensures CodeInput(a + b) == CodeInput(a) + CodeInput(b)
  {
    FilterAppend(a, b, IsDigit);
  }

  /** The code the box holds reaches the provider as it is: trimming digits removes nothing. */
  lemma {:induction false} TrimKeepsCode(raw: string)
    ensures Trim(CodeInput(raw)) == CodeInput(raw)
  {
    var c := CodeInput(raw);
    if c != [] {
      assert IsDigit(c[0]) && IsDigit(c[|c| - 1]);
    }
    TrimStartNoop(c);
    TrimEndNoop(c);
  }

  // ---- submit

  datatype VerifyRequest = VerifyRequest(email: string, token: string, otpType: string)

  /** The provider's answer: an error with its message, or success. */
  datatype AuthReply = AuthFailed(message: string) | AuthOk

  /** The page after submitting: the error shown, the request made, where it went,
      and whether the stored address was forgotten. */
  datatype Submitted = Submitted(err: string, request: Option<VerifyRequest>, goTo: Option<string>, forgetEmail: bool)

  const NeedEmail := "We need your email (start from login/register again)."
  const NoSession := "Code accepted, but session not started. Please log in."
  const BadCode := "Invalid or expired code."
  const DashboardPath := "/dashboard"

  /** `ex.message || fallback`. */
  function Shown(message: string, fallback: string): (r: string)
    ensures message != "" ==> r == message
    ensures message == "" ==> r == fallback
  {
    if message != "" then message else fallback
  }

  /** The request `submit` sends: the address, the trimmed code and the mode's type. */
  function VerifyRequestFor(email: string, mode: string, code: string): VerifyRequest {
    VerifyRequest(email, Trim(code), TypeForMode(mode))
  }

  /** `submit`: without a stored address nothing is sent; otherwise the trimmed code is
      verified with the mode's type, and only a success followed by a live session goes
      on to the dashboard and forgets the stored address. */
  function Submit(email: string, mode: string, code: string, verify: VerifyRequest -> AuthReply, hasSession: bool): (r: Submitted)
    ensures email == "" ==> r == Submitted(NeedEmail, None, None, false)
    ensures email != "" ==> r.request == Some(VerifyRequestFor(email, mode, code))
    ensures r.goTo.Some? <==> email != "" && verify(VerifyRequestFor(email, mode, code)).AuthOk? && hasSession
    ensures r.goTo.Some? ==> r.goTo.value == DashboardPath && r.forgetEmail && r.err == ""
    ensures r.goTo.None? ==> !r.forgetEmail && r.err != ""
    ensures email != "" && verify(VerifyRequestFor(email, mode, code)).AuthFailed? ==>
      r.err == Shown(verify(VerifyRequestFor(email, mode, code)).message, BadCode)
    ensures email != "" && verify(VerifyRequestFor(email, mode, code)).AuthOk? && !hasSession ==>
      r.err == NoSession
  {
    if email == "" then Submitted(NeedEmail, None, None, false)
    else
      var req := VerifyRequestFor(email, mode, code);
      Settle(req, verify(req), hasSession)
  }

  /** What the page does once the provider answered `req`: a failure shows its message;
      a success without a session says so; a success with one goes to the dashboard. */
  function Settle(req: VerifyRequest, reply: AuthReply, hasSession: bool): (r: Submitted)
    ensures r.request == Some(req)
    ensures r.goTo.Some? <==> reply.AuthOk? && hasSession
    ensures r.goTo.Some? ==> r.goTo.value == DashboardPath && r.forgetEmail && r.err == ""
    ensures r.goTo.None? ==> !r.forgetEmail && r.err != ""
    ensures reply.AuthFailed? ==> r.err == Shown(reply.message, BadCode)
    ensures reply.AuthOk? && !hasSession ==> r.err == NoSession
  {
    match reply
    case AuthFailed(message) => Submitted(Shown(message, BadCode), Some(req), None, false)
    case AuthOk =>
      if !hasSession then Submitted(NoSession, Some(req), None, false)
      else Submitted("", Some(req), Some(DashboardPath), true)
  }

  /** On opening the page, an existing session goes straight to the dashboard. */
  function OnOpen(hasSession: bool): (r: Option<string>)
    ensures r.Some? <==> hasSession
    ensures r.Some? ==> r.value == DashboardPath
  {
    if hasSession then Some(DashboardPath) else None
  }

  // ---- resend

  /** `mode === "signup" ? "signup" : "email"`, as written: compared with case, so only
      the exact lower-case spelling asks for a sign-up code. */
  function ResendTypeAsWritten(mode: string): (r: string)
    ensures r == "signup" <==> mode == "signup"
    ensures r != "signup" ==> r == "email"
  {
    if mode == "signup" then "signup" else "email"
  }

  /** A mode spelled in capitals verifies a sign-up code but asks for a login code again. */
  lemma ResendDisagreesOnCapitals()
    ensures TypeForMode("SIGNUP") == "signup"
    ensures ResendTypeAsWritten("SIGNUP") == "email"
  {
    assert ToLower("SIGNUP") == "signup";
  }

  /** The resend type read the way `typeForMode` reads the mode. */
  function ResendType(mode: string): (r: string)
    ensures r == "signup" || r == "email"
  {
    if ToLower(mode) == "signup" then "signup" else "email"
  }

  /** For a sign-up or login page in any spelling, the code asked for is of the kind
      the page will verify; for the modes the app links to, it is the one written. */
  lemma ResendMatchesVerify(mode: string)
    ensures TypeForMode(mode) == "signup" || TypeForMode(mode) == "email" ==> ResendType(mode) == TypeForMode(mode)
    ensures mode == "signup" || mode == "login" ==> ResendType(mode) == ResendTypeAsWritten(mode)
  {
    assert ToLower("signup") == "signup";
    assert ToLower("login") == "login";
  }

  datatype ResendRequest = ResendRequest(otpType: string, email: string)

  /** The page after asking for a new code: the error shown, the request made, and
      whether the "new code sent" notice was raised. */
  datatype Resent = Resent(err: string, request: Option<ResendRequest>, notified: bool)

  /** `resend`, as written: without a stored address nothing is sent; otherwise a sign-up
      code is requested exactly when the mode is spelled `signup`, a login code for any
      other mode, and either the notice or the provider's error is shown. */
  function Resend(email: string, mode: string, send: ResendRequest -> Option<string>): (r: Resent)
    ensures email == "" ==> r == Resent(NeedEmail, None, false)
    ensures email != "" ==> r.request.Some? && r.request.value.email == email
    ensures email != "" ==> (r.request.value.otpType == "signup" <==> mode == "signup")
    ensures email != "" && mode != "signup" ==> r.request.value.otpType == "email"
    ensures r.notified <==> email != "" && send(ResendRequest(ResendTypeAsWritten(mode), email)).None?
    ensures r.notified ==> r.err == ""
    ensures email != "" && send(ResendRequest(ResendTypeAsWritten(mode), email)).Some? ==>
      r.err == Shown(send(ResendRequest(ResendTypeAsWritten(mode), email)).value, "Could not resend code.")
  {
    if email == "" then Resent(NeedEmail, None, false)
    else
      var req := ResendRequest(ResendTypeAsWritten(mode), email);
      match send(req)
      case Some(message) => Resent(Shown(message, "Could not resend code."), Some(req), false)
      case None => Resent("", Some(req), true)
  }
}

=== FILE: quota.dfy ===
/** The dashboard's client-side daily quota: `checkSummaryLimit` and
    `checkQuestionLimit` compare the usage counters read back from the usage
    log with the daily limits. */
module Quota {

  const SummaryDailyLimit: nat := 50
  const QuestionDailyLimit: nat := 100

  const SummaryLimitAlert := "Daily summary limit reached. Please try again tomorrow."
  const QuestionLimitAlert := "Daily question limit reached. Please try again tomorrow."

  /** The counters of the last 24 hours, as `refreshUsage` last read them. */
  datatype Usage = Usage(summaries: nat, questions: nat)

  /** The comparison both checks make: refuse when `current + willUse > limit`. */
  function WithinLimit(current: nat, willUse: nat, limit: nat): bool {
    !(current + willUse > limit)
  }

  /** `checkSummaryLimit(willUse = 1)`. */
  function CheckSummaryLimit(u: Usage, willUse: nat := 1): (ok: bool)
    ensures ok <==> u.summaries + willUse <= SummaryDailyLimit
  {
    WithinLimit(u.summaries, willUse, SummaryDailyLimit)
  }

  /** `checkQuestionLimit(willUse = 1)`. */
  function CheckQuestionLimit(u: Usage, willUse: nat := 1): (ok: bool)
    ensures ok <==> u.questions + willUse <= QuestionDailyLimit
  {
    WithinLimit(u.questions, willUse, QuestionDailyLimit)
  }

  /** Reaching the limit exactly is allowed; one more is not; asking for fewer never hurts. */
  lemma LimitBoundary(current: nat, willUse: nat, fewer: nat, limit: nat)
    requires fewer <= willUse
    ensures current + willUse == limit ==> WithinLimit(current, willUse, limit)
    ensures current + willUse == limit + 1 ==> !WithinLimit(current, willUse, limit)
    ensures WithinLimit(current, willUse, limit) ==> WithinLimit(current, fewer, limit)
  {
  }

  /** With 49 summaries today one more is allowed; at 50 the next is blocked. */
  lemma SummaryScenario(questions: nat)
    ensures CheckSummaryLimit(Usage(49, questions))
    ensures !CheckSummaryLimit(Usage(50, questions))
    ensures !CheckSummaryLimit(Usage(49, questions), 2)
  {
  }

  // ---- How many usage rows a batch writes

  /** The rows the dashboard writes for an admitted batch of `n` requests as the code
      stands: a single `logUsage` call whatever the batch size. */
  function RowsLoggedAsWritten(n: nat): nat {
    if n == 0 then 0 else 1
  }

  /** The rows it must write for the counter to count requests: one per request. */
  function RowsLogged(n: nat): nat {
    n
  }

  /** The counter the gate reads, and the requests actually sent. */
  datatype Day = Day(count: nat, performed: nat)

  /** A day of batches replayed through the client gate from an empty log;
      `rows` says how many usage rows an admitted batch of a given size writes. */
  function Replay(batches: seq<nat>, limit: nat, rows: nat -> nat): Day {
    if batches == [] then Day(0, 0)
    else
      var before := Replay(batches[..|batches| - 1], limit, rows);
      var n := batches[|batches| - 1];
      if WithinLimit(before.count, n, limit) then Day(before.count + rows(n), before.performed + n)
      else before
  }

  /** As written, a whole day's allowance in one batch leaves the counter at 1, so a
      second batch of 49 is admitted too: 99 summaries against a limit of 50. */
  lemma AsWrittenBatchesExceedQuota()
    ensures Replay([50, 49], SummaryDailyLimit, RowsLoggedAsWritten) == Day(2, 99)
    ensures Replay([50, 49], SummaryDailyLimit, RowsLoggedAsWritten).performed > SummaryDailyLimit
  {
    assert [50, 49][..1] == [50];
    assert [50][..0] == [];
  }

  /** Logging one row per request keeps the counter equal to the requests sent,
      and therefore never above the limit, for every sequence of batches. */
  lemma {:induction false} CorrectedBatchesStayWithinQuota(batches: seq<nat>, limit: nat)
    ensures Replay(batches, limit, RowsLogged).count == Replay(batches, limit, RowsLogged).performed
    ensures Replay(batches, limit, RowsLogged).performed <= limit
  {
    if batches != [] {
      CorrectedBatchesStayWithinQuota(batches[..|batches| - 1], limit);
    }
  }
}

=== FILE: share_function.dfy ===
/** The `share` serverless function: renders a summary as a small HTML page, stores it
    in the public `shares` bucket and returns its public address. */
module ShareFunction {
  import opened Wrappers
  import opened Text
  import opened Json
  import opened Http
  import opened DocNames
  import opened Upstream

  const NotConfigured := ErrorReply(500, "Share function not configured")
  const MissingFields := ErrorReply(400, "Missing name or summary")

  predicate IsMarkup(c: char) { c == '<' || c == '>' || c == '&' }
  predicate NotMarkup(c: char) { !IsMarkup(c) }

  /** `String(name).replace(/[<>&]/g, "")`. */
  function StripMarkup(s: string): (r: string)
    ensures forall i :: 0 <= i < |r| ==> !IsMarkup(r[i])
    ensures |r| <= |s|
  {
    Filter(s, NotMarkup)
  }

  /** Stripping keeps every other character, as many times as it occurred. */
  lemma StripMarkupKeepsOthers(s: string, c: char)
    ensures multiset(StripMarkup(s))[c] == if IsMarkup(c) then 0 else multiset(s)[c]
  {
    FilterMultiset(s, NotMarkup, c);
  }

  /** A name without markup characters is kept as it is. */
  lemma StripMarkupOfPlain(s: string)
    requires forall i :: 0 <= i < |s| ==> !IsMarkup(s[i])
    ensures StripMarkup(s) == s
  {
    FilterKeepsAll(s, NotMarkup);
  }

  /** `String(summary).replace(/</g, "&lt;")`. */
  function EscapeLt(s: string): (r: string)
    ensures forall i :: 0 <= i < |r| ==> r[i] != '<'
    ensures |r| >= |s|
  {
    if s == [] then []
    else (if s[0] == '<' then "&lt;" else [s[0]]) + EscapeLt(s[1..])
  }

  /** Reading `&lt;` back as `<`. */
  function UnescapeLt(s: string): string {
    if s == [] then []
    else if |s| >= 4 && s[..4] == "&lt;" then "<" + UnescapeLt(s[4..])
    else [s[0]] + UnescapeLt(s[1..])
  }

  lemma UnescapeEntity(t: string)
    ensures UnescapeLt("&lt;" + t) == "<" + UnescapeLt(t)
  {
    assert ("&lt;" + t)[..4] == "&lt;";
    assert ("&lt;" + t)[4..] == t;
  }

  lemma UnescapeOther(c: char, t: string)
    requires c != '&'
    ensures UnescapeLt([c] + t) == [c] + UnescapeLt(t)
  {
    var u := [c] + t;
    assert u[0] == c;
    assert u[1..] == t;
    if |u| >= 4 {
      assert u[..4][0] == c;
    }
  }

  /** A summary without `&` survives the page: reading `&lt;` back gives it unchanged. */
  lemma {:induction false} EscapeRoundTrip(s: string)
    requires forall i :: 0 <= i < |s| ==> s[i] != '&'
    ensures UnescapeLt(EscapeLt(s)) == s
  {
    if s != [] {
      EscapeRoundTrip(s[1..]);
      var rest := EscapeLt(s[1..]);
      if s[0] == '<' {
        assert EscapeLt(s) == "&lt;" + rest;
        UnescapeEntity(rest);
      } else {
        assert EscapeLt(s) == [s[0]] + rest;
        UnescapeOther(s[0], rest);
      }
      assert s == [s[0]] + s[1..];
    }
  }

  /** Only `<` is escaped, so a summary that already holds `&lt;` reads back the same
      as one holding `<`. */
  lemma EscapeMergesEntity()
    ensures EscapeLt("<") == EscapeLt("&lt;")
  {
    assert EscapeLt("&lt;") == "&" + EscapeLt("lt;");
  }

  /** The page's opening lines, up to its title. */
  const Doctype := "<!doctype html>\n<html>\n<head>\n<meta charset=\"utf-8\" />\n"

  /** The `<title>` line, with the stripped name. */
  function TitleLine(safeName: string): string {
    "<title>" + safeName + " \U{2014} Summary</title>\n"
  }

  /** The viewport, the style sheet and the opening of the body. */
  const Style :=
    "<meta name=\"viewport\" content=\"width=device-width,initial-scale=1\" />\n<style>\n"
    + "body{font-family:system-ui,-apple-system,Segoe UI,Roboto,Inter,Arial,sans-serif;margin:2rem;line-height:1.6}\n"
    + "h1{font-size:1.4rem;margin:0 0 1rem}\n"
    + "pre{white-space:pre-wrap;background:#f6f8fa;border:1px solid #e5e7eb;padding:1rem;border-radius:12px}\n"
    + "footer{margin-top:2rem;color:#6b7280;font-size:.85rem}\n"
    + "</style>\n</head>\n<body>\n"

  /** The `<h1>` heading, with the stripped name. */
  function Heading(safeName: string): string {
    "  <h1>" + safeName + " \U{2014} Summary</h1>\n  "
  }

  /** The page up to the summary, with the stripped name in the title and the heading. */
  function PageHead(safeName: string): string {
    Doctype + TitleLine(safeName) + Style + Heading(safeName)
  }

  const PageTail := "\n  <footer>Shared via AskMyDocs</footer>\n</body>\n</html>"

  /** The page: the escaped summary in a `<pre>` between the head and the footer. */
  function Page(safeName: string, safeSummary: string): string {
    PageHead(safeName) + ("<pre>" + safeSummary + "</pre>") + PageTail
  }

  /** The summary's `<pre>` block follows the head. */
  lemma PageShowsSummary(safeName: string, safeSummary: string)
    ensures OccursAt("<pre>" + safeSummary + "</pre>", Page(safeName, safeSummary), |PageHead(safeName)|)
  {
    OccursBetween(PageHead(safeName), "<pre>" + safeSummary + "</pre>", PageTail);
  }

  /** The stripped name is in the `<title>`, right after the opening lines. */
  lemma PageShowsNameInTitle(safeName: string, safeSummary: string)
    ensures OccursAt(TitleLine(safeName), Page(safeName, safeSummary), |Doctype|)
  {
    OccursSecondOfSix(Doctype, TitleLine(safeName), Style, Heading(safeName), "<pre>" + safeSummary + "</pre>", PageTail);
  }

  /** The stripped name is in the `<h1>`, right after the style sheet. */
  lemma PageShowsNameInHeading(safeName: string, safeSummary: string)
    ensures OccursAt(Heading(safeName), Page(safeName, safeSummary), |Doctype + TitleLine(safeName) + Style|)
  {
    OccursSecondOfFour(Doctype + TitleLine(safeName) + Style, Heading(safeName), "<pre>" + safeSummary + "</pre>", PageTail);
  }

  /** `` `${Date.now()}-${safeName.replace(/[^\w.-]+/g, "_")}.html` ``. */
  function ShareKey(now: nat, safeName: string): (r: string)
    ensures AllNameChars(r)
    ensures EndsWith(r, ".html")
    ensures StartsWith(r, NatToString(now) + "-")
  {
    var stamp := NatToString(now);
    var r := stamp + "-" + SafeName(safeName) + ".html";
    assert forall i :: 0 <= i < |stamp| ==> IsNameChar(r[i]);
    assert r[|r| - 5..] == ".html";
    assert r[..|stamp| + 1] == stamp + "-";
    r
  }

  /** A key is one flat object name: it holds no `/`. */
  lemma ShareKeyIsFlat(now: nat, safeName: string)
    ensures forall i :: 0 <= i < |ShareKey(now, safeName)| ==> ShareKey(now, safeName)[i] != '/'
  {
  }

  /** The object written to the bucket. */
  datatype Upload = Upload(key: string, html: string)

  /** The handler's outcome and the object it wrote, if any. */
  datatype Shared = Shared(outcome: Outcome, upload: Option<Upload>)

  /** The two fields the page needs, read from `await req.json().catch(() => ({}))`:
      an unreadable body reads as an empty object, a `null` body cannot be destructured. */
  function Fields(payload: Option<Json>): Option<(Value, Value)> {
    if payload.None? then Some((None, None))
    else if payload.value.JNull? then None
    else Some((Member(payload, "name"), Member(payload, "summary")))
  }

  /** Both fields truthy, as `!name || !summary` demands. */
  predicate Complete(fields: (Value, Value)) {
    Truthy(fields.0) && Truthy(fields.1)
  }

  /** The object a complete payload produces at time `now`. */
  function PageFor(fields: (Value, Value), now: nat): Upload
    requires Complete(fields)
  {
    var safeName := StripMarkup(ToStr(fields.0.value));
    Upload(ShareKey(now, safeName), Page(safeName, EscapeLt(ToStr(fields.1.value))))
  }

  /** The reply to an upload: its error with 500, or the public address with 200. */
  function UploadReply(u: Upload, error: Option<string>, publicUrl: string -> string): (r: Outcome)
    ensures error.Some? ==> r == ErrorReply(500, error.value)
    ensures error.None? ==> r == Returned(PlainJson(200, Obj1("url", JStr(publicUrl(u.key)))))
  {
    match error
    case Some(message) => ErrorReply(500, message)
    case None => Returned(PlainJson(200, Obj1("url", JStr(publicUrl(u.key)))))
  }

  /** The handler: 405 for anything but POST, 500 when the storage client is missing, a
      crash on a `null` body, 400 unless both name and summary are truthy; otherwise the
      page is uploaded under a timestamped key and the address or the upload error returned. */
  function HandleShare(req: Request, configured: bool, now: nat, upload: Upload -> Option<string>, publicUrl: string -> string): (r: Shared)
    ensures req.verb != "POST" ==> r == Shared(MethodNotAllowed, None)
    ensures req.verb == "POST" && !configured ==> r == Shared(NotConfigured, None)
    ensures req.verb == "POST" && configured && Fields(req.payload).None? ==> r == Shared(Threw, None)
    ensures req.verb == "POST" && configured && Fields(req.payload).Some? && !Complete(Fields(req.payload).value) ==>
      r == Shared(MissingFields, None)
    ensures req.verb == "POST" && configured && Fields(req.payload).Some? && Complete(Fields(req.payload).value) ==>
      var u := PageFor(Fields(req.payload).value, now);
      r == Shared(UploadReply(u, upload(u), publicUrl), Some(u))
  {
    if req.verb != "POST" then Shared(MethodNotAllowed, None)
    else if !configured then Shared(NotConfigured, None)
    else
      var fields := Fields(req.payload);
      if fields.None? then Shared(Threw, None)
      else if !Complete(fields.value) then Shared(MissingFields, None)
      else
        var u := PageFor(fields.value, now);
        Shared(UploadReply(u, upload(u), publicUrl), Some(u))
  }

  /** Something is uploaded exactly for a configured POST whose name and summary are both
      truthy, and then under a flat `.html` key made of allowed characters; the function
      answers only 200, 400, 405 or 500, or crashes. */
  lemma UploadsOnlyCompletePosts(req: Request, configured: bool, now: nat, upload: Upload -> Option<string>, publicUrl: string -> string)
    ensures var r := HandleShare(req, configured, now, upload, publicUrl);
      r.upload.Some? <==> req.verb == "POST" && configured && Fields(req.payload).Some? && Complete(Fields(req.payload).value)
    ensures var r := HandleShare(req, configured, now, upload, publicUrl);
      r.upload.Some? ==> AllNameChars(r.upload.value.key) && EndsWith(r.upload.value.key, ".html")
    ensures var r := HandleShare(req, configured, now, upload, publicUrl);
      r.outcome.Returned? ==> r.outcome.res.status in {200, 400, 405, 500}
  {
  }

  /** The deployed function, `serve(withCORS(handler))`: a preflight is answered without
      running the handler, so nothing is uploaded; every response the handler returns
      leaves with its status and body, the allowed origin and `application/json`; a
      throw becomes the bare 500. */
  lemma DeployedShare(origin: string, req: Request, configured: bool, now: nat, upload: Upload -> Option<string>, publicUrl: string -> string)
    ensures var h := HandleShare(req, configured, now, upload, publicUrl);
      var res := Serve(WithFunctionCors(origin, (q: Request) => HandleShare(q, configured, now, upload, publicUrl).outcome, req));
      && (req.verb == "OPTIONS" ==> h.upload.None? && res.status == 200 && HasHeader(res, AllowOrigin, origin))
      && (req.verb != "OPTIONS" && h.outcome.Returned? ==>
            && res.status == h.outcome.res.status && res.body == h.outcome.res.body
            && HasHeader(res, AllowOrigin, origin) && HasHeader(res, ContentType, "application/json"))
      && (req.verb != "OPTIONS" && h.outcome.Threw? ==> res == InternalError)
  {
  }
}

=== FILE: summarize_function.dfy ===
/** The `summarize` serverless function: one prompt asking for a short bulleted summary
    of a document's text, sent to the completion service. */
module SummarizeFunction {
  import opened Wrappers
  import opened Text
  import opened Json
  import opened Http
  import opened Completion
  import opened Upstream

  const MaxChars: nat := 200000
  /** The instruction around the optional title: `Summarize the following document`,
      then ` titled "<name>"` when there is a name, then ` in 5–7 concise bullets.` and
      the guidance line. */
  const Lead := "Summarize the following document "
  const Closing := "in" + " 5\U{2013}7 concise bullets.\nFocus on key facts, outcomes, and next steps. Plain text only.\n\n"
  const TitledLead := Lead + "titled \""
  const NoSummary := "No summary generated."
  const MissingText := ErrorReply(400, "Missing 'text'")

  /** `` name ? ` titled "${name}"` : "" ``, with the space after it moved in. */
  function Title(name: Value): string {
    if Truthy(name) then "titled \"" + ToStr(name.value) + "\" " else ""
  }

  /** The prompt: the instruction, with the title when the name is truthy, then at most
      200 000 characters of `String(text)`. */
  function Prompt(name: Value, text: Json): (r: string)
    ensures StartsWith(r, Lead)
    ensures EndsWith(r, TakeAtMost(ToStr(text), MaxChars))
  {
    var body := TakeAtMost(ToStr(text), MaxChars);
    var head := Lead + Title(name) + Closing;
    assert (head + body)[|head + body| - |body|..] == body;
    StartsWithAppend(Lead, Title(name));
    StartsWithAppend(Lead + Title(name), Closing);
    StartsWithTrans(head, Lead + Title(name), Lead);
    StartsWithAppend(head, body);
    StartsWithTrans(head + body, head, Lead);
    head + body
  }

  /** A truthy name puts the title right after the lead. */
  lemma TitledWhenNamed(name: Value, text: Json)
    requires Truthy(name)
    ensures StartsWith(Prompt(name, text), TitledLead)
  {
    var body := TakeAtMost(ToStr(text), MaxChars);
    var t := Title(name);
    var x := Lead + t + Closing;
    assert Prompt(name, text) == x + body;
    StartsWithAppend(x, body);
    StartsWithAppend(Lead + t, Closing);
    StartsWithTrans(Prompt(name, text), x, Lead + t);
    var w := "titled \"";
    StartsWithAppend(w, ToStr(name.value));
    StartsWithAppend(w + ToStr(name.value), "\" ");
    StartsWithTrans(t, w + ToStr(name.value), w);
    StartsWithExtend(Lead, t, w);
    StartsWithTrans(Prompt(name, text), Lead + t, TitledLead);
  }

  /** Without a name the lead goes straight on to the bullet count. */
  lemma UntitledWhenUnnamed(name: Value, text: Json)
    requires !Truthy(name)
    ensures !StartsWith(Prompt(name, text), TitledLead)
  {
    var body := TakeAtMost(ToStr(text), MaxChars);
    assert Title(name) == "";
    AppendEmpty(Lead);
    assert Prompt(name, text) == Lead + Closing + body;
    assert Closing[0] == "in"[0];
    PartAfter(Lead, Closing, body, "titled \"");
  }

  /** The prompt names the document exactly when the payload's name is truthy. */
  lemma TitledIffNamed(name: Value, text: Json)
    ensures StartsWith(Prompt(name, text), TitledLead) <==> Truthy(name)
  {
    if Truthy(name) {
      TitledWhenNamed(name, text);
    } else {
      UntitledWhenUnnamed(name, text);
    }
  }

  /** A text within the limit reaches the prompt whole. */
  lemma ShortTextSentWhole(name: Value, text: Json)
    requires |ToStr(text)| <= MaxChars
    ensures EndsWith(Prompt(name, text), ToStr(text))
  {
  }

  /** The handler: 405 for anything but POST, 400 when the payload's text is falsy, 500
      without an API key; otherwise the prompt for the payload goes out and the reply
      is answered as `Respond` says, under `summary`. */
  function HandleSummarize(req: Request, apiKey: string, upstream: string -> Upstream): (r: Handled)
    ensures req.verb != "POST" ==> r == Handled(MethodNotAllowed, None)
    ensures req.verb == "POST" && !Truthy(Member(Some(Payload(req)), "text")) ==> r == Handled(MissingText, None)
    ensures req.verb == "POST" && Truthy(Member(Some(Payload(req)), "text")) && apiKey == "" ==> r == Handled(MissingApiKey, None)
    ensures req.verb == "POST" && Truthy(Member(Some(Payload(req)), "text")) && apiKey != "" ==>
      var prompt := Prompt(Member(Some(Payload(req)), "name"), Member(Some(Payload(req)), "text").value);
      r == Handled(Respond(upstream(prompt), "summary", NoSummary), Some(prompt))
  {
    if req.verb != "POST" then Handled(MethodNotAllowed, None)
    else
      var p := Payload(req);
      var text := Member(Some(p), "text");
      if !Truthy(text) then Handled(MissingText, None)
      else if apiKey == "" then Handled(MissingApiKey, None)
      else
        var prompt := Prompt(Member(Some(p), "name"), text.value);
        Handled(Respond(upstream(prompt), "summary", NoSummary), Some(prompt))
  }

  /** The function answers only 200, 400, 405, 500 or 502, and a prompt it sends ends
      with the payload's text, cut to 200 000 characters. */
  lemma SummarizeStatuses(req: Request, apiKey: string, upstream: string -> Upstream)
    ensures var r := HandleSummarize(req, apiKey, upstream);
      r.outcome.Returned? ==> r.outcome.res.status in {200, 400, 405, 500, 502}
    ensures var r := HandleSummarize(req, apiKey, upstream);
      r.prompt.Some? ==> EndsWith(r.prompt.value, TakeAtMost(ToStr(Member(Some(Payload(req)), "text").value), MaxChars))
  {
  }

  /** The deployed function, `serve(withCORS(handler))`: a preflight is answered without
      running the handler, so nothing is sent to the completion service; every response the handler returns
      leaves with its status and body, the allowed origin and `application/json`; a
      throw becomes the bare 500. */
  lemma DeployedSummarize(origin: string, req: Request, apiKey: string, upstream: string -> Upstream)
    ensures var h := HandleSummarize(req, apiKey, upstream);
      var res := Serve(WithFunctionCors(origin, (q: Request) => HandleSummarize(q, apiKey, upstream).outcome, req));
      && (req.verb == "OPTIONS" ==> h.prompt.None? && res.status == 200 && HasHeader(res, AllowOrigin, origin))
      && (req.verb != "OPTIONS" && h.outcome.Returned? ==>
            && res.status == h.outcome.res.status && res.body == h.outcome.res.body
            && HasHeader(res, AllowOrigin, origin) && HasHeader(res, ContentType, "application/json"))
      && (req.verb != "OPTIONS" && h.outcome.Threw? ==> res == InternalError)
  {
  }
}

=== FILE: text.dfy ===
/** String helpers with the exact JavaScript behaviour the application relies on:
    `toLowerCase` on ASCII, `endsWith`, `slice(0, n)`, `trim`, `Array.prototype.join`
    and the decimal form of integers. */
module Text {

  // ---- Character classes

  predicate IsDigit(c: char) { '0' <= c <= '9' }

  predicate IsAsciiLetter(c: char) { 'A' <= c <= 'Z' || 'a' <= c <= 'z' }

  /** A character of the JavaScript class `[\w.\-]`: `\w` without the `u` flag is `[A-Za-z0-9_]`. */
  predicate IsNameChar(c: char) { IsAsciiLetter(c) || IsDigit(c) || c == '_' || c == '.' || c == '-' }

  /** ECMAScript WhiteSpace and LineTerminator code points, the set `String.prototype.trim` removes. */
  predicate IsJsSpace(c: char) {
    var n := c as int;
    n == 0x09 || n == 0x0A || n == 0x0B || n == 0x0C || n == 0x0D || n == 0x20
    || n == 0xA0 || n == 0x1680 || (0x2000 <= n <= 0x200A) || n == 0x2028 || n == 0x2029
    || n == 0x202F || n == 0x205F || n == 0x3000 || n == 0xFEFF
  }

  predicate AllDigits(s: string) { forall i :: 0 <= i < |s| ==> IsDigit(s[i]) }

  predicate AllNameChars(s: string) { forall i :: 0 <= i < |s| ==> IsNameChar(s[i]) }

  // ---- Case

  function LowerChar(c: char): (r: char)
    ensures IsNameChar(r) <==> IsNameChar(c)
    ensures r != c ==> 'A' <= c <= 'Z'
  {
    if 'A' <= c <= 'Z' then (c as int + 32) as char else c
  }

  /** `toLowerCase`, on the ASCII letters only. */
  function ToLower(s: string): (r: string)
    ensures |r| == |s|
    ensures forall i :: 0 <= i < |s| ==> r[i] == LowerChar(s[i])
  {
    seq(|s|, i requires 0 <= i < |s| => LowerChar(s[i]))
  }

  lemma ToLowerAppend(a: string, b: string)
    ensures ToLower(a + b) == ToLower(a) + ToLower(b)
  {
  }

  /** Lowering twice is lowering once. */
  lemma ToLowerIdempotent(s: string)
    ensures ToLower(ToLower(s)) == ToLower(s)
  {
  }

  // ---- Affixes and slices

  predicate StartsWith(s: string, prefix: string) {
    |prefix| <= |s| && s[..|prefix|] == prefix
  }

  predicate EndsWith(s: string, suffix: string) {
    |suffix| <= |s| && s[|s| - |suffix|..] == suffix
  }

  function Min(a: int, b: int): int { if a <= b then a else b }

  /** `s.slice(0, n)` for a non-negative `n`. */
  function TakeAtMost(s: string, n: nat): (r: string)
    ensures |r| == Min(|s|, n)
    ensures r == s[..|r|]
  {
    if |s| <= n then s else s[..n]
  }

  /** Every character of `s` that `keep` accepts, in order. */
  function Filter(s: string, keep: char -> bool): (r: string)
    ensures |r| <= |s|
    ensures forall i :: 0 <= i < |r| ==> keep(r[i])
  {
    if s == [] then []
    else (if keep(s[0]) then [s[0]] else []) + Filter(s[1..], keep)
  }

  lemma {:induction false} FilterAppend(a: string, b: string, keep: char -> bool)
    ensures Filter(a + b, keep) == Filter(a, keep) + Filter(b, keep)
  {
    if a == [] {
      assert a + b == b;
    } else {
      assert (a + b)[1..] == a[1..] + b;
      FilterAppend(a[1..], b, keep);
    }
  }

  lemma {:induction false} FilterKeepsAll(s: string, keep: char -> bool)
    requires forall i :: 0 <= i < |s| ==> keep(s[i])
    ensures Filter(s, keep) == s
  {
    if s != [] {
      FilterKeepsAll(s[1..], keep);
    }
  }

  /** The multiset of the result is that of the input with every rejected character gone. */
  lemma {:induction false} FilterMultiset(s: string, keep: char -> bool, c: char)
    ensures multiset(Filter(s, keep))[c] == if keep(c) then multiset(s)[c] else 0
  {
    if s != [] {
      FilterMultiset(s[1..], keep, c);
      assert s == [s[0]] + s[1..];
    }
  }

  // ---- trim

  function TrimStart(s: string): (r: string)
    ensures |r| <= |s| && r == s[|s| - |r|..]
    ensures forall k :: 0 <= k < |s| - |r| ==> IsJsSpace(s[k])
    ensures r == [] || !IsJsSpace(r[0])
  {
    if |s| > 0 && IsJsSpace(s[0]) then TrimStart(s[1..]) else s
  }

  function TrimEnd(s: string): (r: string)
    ensures |r| <= |s| && r == s[..|r|]
    ensures forall k :: |r| <= k < |s| ==> IsJsSpace(s[k])
    ensures r == [] || !IsJsSpace(r[|r| - 1])
  {
    if |s| > 0 && IsJsSpace(s[|s| - 1]) then TrimEnd(s[..|s| - 1]) else s
  }

  /** No whitespace at either end. */
  predicate Trimmed(s: string) {
    s == [] || (!IsJsSpace(s[0]) && !IsJsSpace(s[|s| - 1]))
  }

  /** `r` occurs in `s` starting at index `i`. */
  predicate OccursAt(r: string, s: string, i: nat) {
    i + |r| <= |s| && s[i..i + |r|] == r
  }

  /** `b` sits in `a + b + c` right after `a`. */
  lemma OccursBetween(a: string, b: string, c: string)
    ensures OccursAt(b, a + b + c, |a|)
  {
    assert (a + b + c)[|a|..|a| + |b|] == b;
  }

  /** `b` sits in `a + b + c + d` right after `a`. */
  lemma OccursSecondOfFour(a: string, b: string, c: string, d: string)
    ensures OccursAt(b, a + b + c + d, |a|)
  {
    assert (a + b + c + d)[|a|..|a| + |b|] == b;
  }

  /** `b` sits in `a + b + c + d + e + f` right after `a`. */
  lemma OccursSecondOfSix(a: string, b: string, c: string, d: string, e: string, f: string)
    ensures OccursAt(b, a + b + c + d + e + f, |a|)
  {
    assert (a + b + c + d + e + f)[|a|..|a| + |b|] == b;
  }

  lemma StartsWithAppend(a: string, b: string)
    ensures StartsWith(a + b, a)
  {
    assert (a + b)[..|a|] == a;
  }

  lemma StartsWithTrans(s: string, p: string, q: string)
    requires StartsWith(s, p) && StartsWith(p, q)
    ensures StartsWith(s, q)
  {
    assert s[..|q|] == s[..|p|][..|q|];
  }

  lemma StartsWithExtend(p: string, a: string, b: string)
    requires StartsWith(a, b)
    ensures StartsWith(p + a, p + b)
  {
    assert (p + a)[..|p + b|] == p + a[..|b|];
  }

  /** Two strings that part at the first character after a common prefix start differently. */
  lemma PartAfter(p: string, a: string, c: string, b: string)
    requires |a| > 0 && |b| > 0 && a[0] != b[0]
    ensures !StartsWith(p + a + c, p + b)
  {
    if |p + b| <= |p + a + c| {
      assert (p + a + c)[..|p + b|][|p|] == a[0];
      assert (p + b)[|p|] == b[0];
    }
  }

  lemma AppendEmpty(a: string)
    ensures a + "" == a
  {
  }

  /** `String.prototype.trim`: the infix of `s` left after removing whitespace from both ends. */
  function Trim(s: string): (r: string)
    ensures Trimmed(r)
    ensures TrimmedFrom(r, s)
  {
    TrimSpan(s);
    TrimEnd(TrimStart(s))
  }

  /** Where the trimmed text sits in `s`, and that only whitespace lies around it. */
  lemma {:induction false} TrimSpan(s: string)
    ensures var r := TrimEnd(TrimStart(s)); var i := |s| - |TrimStart(s)|;
      OccursAt(r, s, i) && SpaceOutside(s, i, i + |r|)
  {
    var t := TrimStart(s);
    var r := TrimEnd(t);
    var i := |s| - |t|;
    InfixOfSuffix(s, i, t, r);
    SpacesAfterShift(s, i, t, |r|);
  }

  lemma InfixOfSuffix(s: string, i: nat, t: string, r: string)
    requires i <= |s| && t == s[i..] && |r| <= |t| && r == t[..|r|]
    ensures OccursAt(r, s, i)
  {
    assert s[i..i + |r|] == r;
  }

  lemma SpacesAfterShift(s: string, i: nat, t: string, j: nat)
    requires i <= |s| && t == s[i..] && j <= |t|
    requires forall k :: j <= k < |t| ==> IsJsSpace(t[k])
    ensures forall k :: i + j <= k < |s| ==> IsJsSpace(s[k])
  {
    forall k | i + j <= k < |s| ensures IsJsSpace(s[k]) {
      assert s[k] == t[k - i];
    }
  }

  /** `r` is an infix of `s` with only whitespace around it. */
  ghost predicate TrimmedFrom(r: string, s: string) {
    exists i: nat :: OccursAt(r, s, i) && SpaceOutside(s, i, i + |r|)
  }

  /** Everything in `s` before index `i` and from index `j` on is whitespace. */
  predicate SpaceOutside(s: string, i: nat, j: nat)
    requires i <= j <= |s|
  {
    && (forall k :: 0 <= k < i ==> IsJsSpace(s[k]))
    && (forall k :: j <= k < |s| ==> IsJsSpace(s[k]))
  }

  lemma {:induction false} TrimStartNoop(s: string)
    requires s == [] || !IsJsSpace(s[0])
    ensures TrimStart(s) == s
  {
  }

  lemma {:induction false} TrimEndNoop(s: string)
    requires s == [] || !IsJsSpace(s[|s| - 1])
    ensures TrimEnd(s) == s
  {
  }

  /** Trimming twice is trimming once. */
  lemma TrimIdempotent(s: string)
    ensures Trim(Trim(s)) == Trim(s)
  {
    var r := Trim(s);
    TrimStartNoop(r);
    TrimEndNoop(r);
  }

  // ---- join

  /** `parts.join(sep)`. */
  function Join(sep: string, parts: seq<string>): (r: string)
    ensures |parts| == 1 ==> r == parts[0]
  {
    if |parts| == 0 then ""
    else if |parts| == 1 then parts[0]
    else parts[0] + sep + Join(sep, parts[1..])
  }

  // ---- numbers

  function DigitChar(d: nat): (c: char)
    requires d < 10
    ensures IsDigit(c)
  {
    ('0' as int + d) as char
  }

  /** The decimal form of a natural number, as `String(n)` writes it. */
  function NatToString(n: nat): (r: string)
    ensures |r| > 0
    ensures AllDigits(r)
  {
    if n < 10 then [DigitChar(n)] else NatToString(n / 10) + [DigitChar(n % 10)]
  }

  /** The decimal form of an integer, with a leading `-` when negative. */
  function IntToString(n: int): (r: string)
    ensures |r| > 0
  {
    if n < 0 then "-" + NatToString(-n) else NatToString(n)
  }
}

=== FILE: usage_gate.dfy ===
/** The server-side daily usage gate `checkAndLogUsage`: authenticate, count the
    caller's events of one kind over the last 24 hours, refuse at or above the
    kind's limit, otherwise log one event and admit. Authentication, the count
    query and the insert are inputs; the 24-hour window lives inside the count. */
module UsageGate {
  import opened Wrappers
  import opened Json
  import opened Http

  /** What `LIMITS[kind] ?? 0` yields: a number, or a member every object literal
      inherits from `Object.prototype` (a method, or the prototype itself for
      `__proto__`), which no comparison with a number holds for. */
  datatype LimitValue = Number(n: nat) | Inherited

  /** The property names an object literal inherits from `Object.prototype`. */
  const PrototypeKeys: set<string> := {
    "constructor", "hasOwnProperty", "isPrototypeOf", "propertyIsEnumerable",
    "toLocaleString", "toString", "valueOf", "__proto__",
    "__defineGetter__", "__defineSetter__", "__lookupGetter__", "__lookupSetter__"}

  /** `LIMITS[kind] ?? 0` over the object literal `{ summarize: 50, ask: 100 }`. */
  function Limit(kind: string): (r: LimitValue)
    ensures kind == "summarize" ==> r == Number(50)
    ensures kind == "ask" ==> r == Number(100)
    ensures kind in PrototypeKeys <==> r.Inherited?
    ensures kind != "summarize" && kind != "ask" && kind !in PrototypeKeys ==> r == Number(0)
  {
    if kind == "summarize" then Number(50)
    else if kind == "ask" then Number(100)
    else if kind in PrototypeKeys then Inherited
    else Number(0)
  }

  /** `count >= limit`: false against an inherited member, whose numeric value is `NaN`. */
  predicate AtLimit(count: nat, limit: LimitValue) {
    limit.Number? && count >= limit.n
  }

  /** The result of the count query: an error message, or a count that may be null. */
  datatype CountReply = CountFailed(message: string) | Counted(count: Option<nat>)

  /** A row of `usage_events`. */
  datatype UsageEvent = UsageEvent(userId: string, kind: string)

  /** `{ ok: false, res }` or `{ ok: true, supa, user }`. */
  datatype GateReply = Refused(res: Response) | Admitted(userId: string)

  /** The reply, together with the rows the gate asks the database to insert. */
  datatype GateOutcome = GateOutcome(reply: GateReply, inserted: seq<UsageEvent>)

  /** The count the gate compares, with a null count read as 0. */
  function EffectiveCount(c: Option<nat>): nat { c.GetOr(0) }

  /** The gate admits exactly an authenticated caller whose count query succeeded
      and who has room for one more event. */
  predicate Admits(user: Option<string>, kind: string, count: CountReply) {
    user.Some? && count.Counted? && !AtLimit(EffectiveCount(count.count), Limit(kind))
  }

  /** `checkAndLogUsage(req, kind)`. The insert's own success does not change the reply. */
  function CheckAndLogUsage(user: Option<string>, kind: string, count: CountReply): (r: GateOutcome)
    ensures r.reply.Admitted? <==> Admits(user, kind, count)
    ensures r.reply.Admitted? ==> r.reply.userId == user.value && r.inserted == [UsageEvent(user.value, kind)]
    ensures r.reply.Refused? ==> r.inserted == []
    ensures user.None? ==> r.reply == Refused(JsonResponse(Obj1("error", JStr("Unauthorized")), 401))
    ensures user.Some? && count.CountFailed? ==>
      r.reply == Refused(JsonResponse(Obj1("error", JStr(count.message)), 500))
    ensures user.Some? && count.Counted? && AtLimit(EffectiveCount(count.count), Limit(kind)) ==>
      && r.reply.Refused? && r.reply.res.status == 429
      && r.reply.res.body == JsonBody(JObj(map["error" := JStr("Daily limit reached"), "kind" := JStr(kind), "limit" := JNum(Limit(kind).n)]))
  {
    if user.None? then
      GateOutcome(Refused(JsonResponse(Obj1("error", JStr("Unauthorized")), 401)), [])
    else if count.CountFailed? then
      GateOutcome(Refused(JsonResponse(Obj1("error", JStr(count.message)), 500)), [])
    else
      var limit := Limit(kind);
      if AtLimit(EffectiveCount(count.count), limit) then
        GateOutcome(Refused(JsonResponse(
          JObj(map["error" := JStr("Daily limit reached"), "kind" := JStr(kind), "limit" := JNum(limit.n)]), 429)), [])
      else
        GateOutcome(Admitted(user.value), [UsageEvent(user.value, kind)])
  }

  /** A kind outside the table, and not inherited from `Object.prototype`, is refused
      for everyone. */
  lemma UnknownKindAlwaysRefused(user: Option<string>, kind: string, count: CountReply)
    requires kind != "summarize" && kind != "ask" && kind !in PrototypeKeys
    ensures CheckAndLogUsage(user, kind, count).reply.Refused?
    ensures CheckAndLogUsage(user, kind, count).inserted == []
  {
  }

  /** A kind named like an inherited member (`"toString"`, say) has no limit at all: an
      authenticated caller whose count query succeeds is admitted and logged at any count. */
  lemma InheritedKindAlwaysAdmitted(userId: string, kind: string, count: nat)
    requires kind in PrototypeKeys
    ensures CheckAndLogUsage(Some(userId), kind, Counted(Some(count))).reply == Admitted(userId)
    ensures CheckAndLogUsage(Some(userId), kind, Counted(Some(count))).inserted == [UsageEvent(userId, kind)]
  {
  }

  /** A null count is read as no events at all. */
  lemma NullCountIsZero(user: Option<string>, kind: string)
    ensures CheckAndLogUsage(user, kind, Counted(None)) == CheckAndLogUsage(user, kind, Counted(Some(0)))
  {
  }

  // ---- The gate over a usage log

  /** The number of events of `kind` by `userId` in `log`. */
  function CountOf(log: seq<UsageEvent>, userId: string, kind: string): nat {
    if log == [] then 0
    else CountOf(log[..|log| - 1], userId, kind) + (if log[|log| - 1] == UsageEvent(userId, kind) then 1 else 0)
  }

  lemma {:induction false} CountOfAppend(log: seq<UsageEvent>, more: seq<UsageEvent>, userId: string, kind: string)
    ensures CountOf(log + more, userId, kind) == CountOf(log, userId, kind) + CountOf(more, userId, kind)
  {
    if more != [] {
      assert (log + more)[..|log + more| - 1] == log + more[..|more| - 1];
      assert (log + more)[|log + more| - 1] == more[|more| - 1];
      CountOfAppend(log, more[..|more| - 1], userId, kind);
    } else {
      assert log + more == log;
    }
  }

  /** When the count query reads the log faithfully, a gated call never takes the
      caller's count of a kind above its limit: the limit is an invariant of the log. */
  lemma {:induction false} GateKeepsCountWithinLimit(log: seq<UsageEvent>, userId: string, kind: string)
    requires Limit(kind).Number? && CountOf(log, userId, kind) <= Limit(kind).n
    ensures var r := CheckAndLogUsage(Some(userId), kind, Counted(Some(CountOf(log, userId, kind))));
      CountOf(log + r.inserted, userId, kind) <= Limit(kind).n
    ensures var r := CheckAndLogUsage(Some(userId), kind, Counted(Some(CountOf(log, userId, kind))));
      r.reply.Admitted? <==> CountOf(log, userId, kind) < Limit(kind).n
  {
    var r := CheckAndLogUsage(Some(userId), kind, Counted(Some(CountOf(log, userId, kind))));
    CountOfAppend(log, r.inserted, userId, kind);
    if r.reply.Admitted? {
      assert CountOf(r.inserted, userId, kind) == CountOf([], userId, kind) + 1 by {
        assert r.inserted[..0] == [];
      }
    }
  }

  /** With 49 summaries logged the next one is admitted, bringing the count to 50,
      and the one after that is refused with 429. */
  lemma FiftiethSummaryScenario(log: seq<UsageEvent>, userId: string)
    requires CountOf(log, userId, "summarize") == 49
    ensures var r := CheckAndLogUsage(Some(userId), "summarize", Counted(Some(49)));
      && r.reply.Admitted?
      && CountOf(log + r.inserted, userId, "summarize") == 50
      && CheckAndLogUsage(Some(userId), "summarize", Counted(Some(50))).reply.Refused?
      && CheckAndLogUsage(Some(userId), "summarize", Counted(Some(50))).reply.res.status == 429
  {
    var r := CheckAndLogUsage(Some(userId), "summarize", Counted(Some(49)));
    CountOfAppend(log, r.inserted, userId, "summarize");
    assert r.inserted[..0] == [];
  }
}

=== FILE: wrappers.dfy ===
/** Option, the optional-value type used across the model. */
module Wrappers {

  /** `None` stands for JavaScript's `undefined` (or a missing value). */
  datatype Option<+T> = None | Some(value: T) {

    /** The value, or `default` when there is none. */
    function GetOr(default: T): T {
      match this
      case Some(v) => v
      case None => default
    }
  }
}
